=== FILE: README.md ===
# FreeOrion options dialog, multi-meter status bar and in-game menu: decision logic

This project models the decision logic behind three FreeOrion client windows.

**The options dialog:**
- how a hotkey name picks the section it is listed under;
- how the hotkeys are grouped by section;
- the spin-box limits derived from an option's validator;
- the file and directory checks behind the path edit boxes, and the red/normal text gate on every edit;
- the video-mode drop list, which formats and parses `"<w> x <h>"` and locates the current mode;
- the key catcher used to rebind a hotkey, and setting or resetting a hotkey;
- the sound enable/disable toggles and volume sliders;
- the keys that close the dialog.

**The multi-meter status bar:**
- the colour of each meter type;
- how `Update` collects initial/projected/target values and colours, and how it sizes the bar stack.

**The in-game menu:**
- the width and cell height of its buttons and how `DoLayout` stacks them;
- the keys that close it;
- the `CanSaveNow` guard around saving.

Everything is pure and immutable. The options database is a `map` from option name to value. The string table is a set of defined keys. The filesystem is abstract sets of paths. The sound system is a record of flags and volumes. Calls into the application (saving, sending orders, showing a message box) are returned as a list of calls.

Modules:
- `Common`: the option value type, `Option`, 32-bit integers.
- `Text`: C-locale upper-casing, `ends_with`, and decimal formatting/parsing with a signed 32-bit integer parser.
- `HotkeySections`: section lookup and grouping by section.
- `OptionControls`: spin limits, file checks and the edit gate.
- `Resolution`: the video-mode drop list.
- `Keys`: the key catcher, hotkey set/reset, and the options dialog's Done.
- `SoundFeedback`: the sound toggles and sliders.
- `MeterBar`: the status bar.
- `InGameMenu`: the in-game menu.

## Model

| member | source | states |
|---|---|---|
| Text.ToUpper | UI/OptionsWnd.cpp:1421 | upper-casing keeps the length and maps each character on its own; only 'a'..'z' change (C locale) |
| Text.ToUpperIdempotent | UI/OptionsWnd.cpp:1421 | upper-casing twice equals upper-casing once |
| Text.ParseInt | UI/OptionsWnd.cpp:1406-1409 | a successful parse consumes an optional sign and the whole digit run after it, returns that run's value (negated after '-') within the 32-bit range, and leaves the rest of the text; text with no digit after the optional sign fails |
| Text.ParseIntOnDigitRun | UI/OptionsWnd.cpp:1406-1409 | a sign and a maximal digit run parse to their value and the text after them exactly when the value fits a 32-bit int; otherwise the parse fails |
| Text.ParseIntOverflowWitness | UI/OptionsWnd.cpp:1406-1409 | "2147483648", one past the largest 32-bit int, does not parse |
| Text.IntRoundTrip | UI/OptionsWnd.cpp:1406-1409 | parsing the decimal form of any 32-bit int, followed by a non-digit, gives back the int and the rest |
| Text.DecimalRoundTrip | UI/OptionsWnd.cpp:1300 | the digit string of a natural number reads back as that number |
| HotkeySections.SplitDots | UI/OptionsWnd.cpp:1423-1427 | splitting on runs of dots gives at least one token; no token holds a dot; only the first token can be empty |
| HotkeySections.SplitJoin | UI/OptionsWnd.cpp:1423-1427 | re-joining the tokens with single dots equals the name with every run of dots squeezed to one dot and a run at the end dropped |
| HotkeySections.DotRunIsOneSeparator | UI/OptionsWnd.cpp:1423 | a run of two dots splits exactly as one dot |
| HotkeySections.SplitNoDots | UI/OptionsWnd.cpp:1423-1427 | a name without dots is a single token |
| HotkeySections.LongestKnown | UI/OptionsWnd.cpp:1430-1437 | finds the longest cumulative prefix whose section key exists; none exists exactly when no prefix key is defined |
| HotkeySections.SectionFor | UI/OptionsWnd.cpp:1417-1440 | the section always starts with "HOTKEYS". It is HOTKEYS_GENERAL when no prefix key exists. Otherwise it is the key of the longest existing prefix, and that key is defined |
| HotkeySections.NoEarlyBreak | UI/OptionsWnd.cpp:1431-1432 | for a non-empty name, the cumulative prefix never equals the name, so the early `break` cannot fire |
| HotkeySections.ValidSectionForHotkey | UI/OptionsWnd.cpp:1417-1440 | the loop with its break computes exactly `SectionFor`, and the result starts with "HOTKEYS" |
| HotkeySections.SectionIgnoresCase | UI/OptionsWnd.cpp:1421 | a name and its upper-cased form fall into the same section |
| HotkeySections.SectionDotRuns | UI/OptionsWnd.cpp:1423-1437 | doubling a dot in a name does not change its section |
| HotkeySections.Members | UI/OptionsWnd.cpp:1444-1446 | the hotkeys of one section are exactly those whose section is that one |
| HotkeySections.HotkeysBySection | UI/OptionsWnd.cpp:1442-1449 | every hotkey's section is a key of the map; each list is exactly that section's hotkeys, in order, and is non-empty; no other section has hotkeys |
| HotkeySections.HotkeyInExactlyOneSection | UI/OptionsWnd.cpp:1442-1449 | every hotkey is listed under its own section and under no other |
| HotkeySections.GroupingAppends | UI/OptionsWnd.cpp:1446 | adding one hotkey appends it to its section's list and leaves every other section unchanged |
| OptionControls.IntSpin | UI/OptionsWnd.cpp:981-992 | the spin's min/max come from a ranged validator and otherwise are -1000000..1000000; its step comes from a step validator and otherwise is 1 |
| OptionControls.DoubleSpin | UI/OptionsWnd.cpp:1027-1038 | the same rules for a real-valued option |
| OptionControls.IntAndDoubleSpinAgree | UI/OptionsWnd.cpp:1027-1038 | an int spin and a double spin built from the same validator have the same limits and step |
| OptionControls.Accepts | UI/OptionsWnd.cpp:124-196 | without a check every text is accepted. With a check, a name is accepted exactly when it is usable, exists, carries the check's suffix (if any), and is of the right kind: a directory for the directory check, a regular file for the binary check, and not a directory for the suffix file checks |
| OptionControls.ValidStringtableFile | UI/OptionsWnd.cpp:124-134 | an accepted name ends in ".txt", exists and is not a directory |
| OptionControls.ValidFontFile | UI/OptionsWnd.cpp:136-146 | an accepted name ends in ".ttf", exists and is not a directory |
| OptionControls.ValidMusicFile | UI/OptionsWnd.cpp:148-158 | an accepted name ends in ".ogg", exists and is not a directory |
| OptionControls.ValidSoundFile | UI/OptionsWnd.cpp:160-170 | an accepted name ends in ".ogg", exists and is not a directory |
| OptionControls.ValidDirectory | UI/OptionsWnd.cpp:172-181 | an accepted name is an existing directory, and every suffix file check rejects it |
| OptionControls.ValidExecutableBinary | UI/OptionsWnd.cpp:183-196 | an accepted name is an existing regular file; in a Windows build it also ends in ".exe" |
| OptionControls.MusicAndSoundChecksAgree | UI/OptionsWnd.cpp:148-170 | the music and sound checks accept the same names, since both suffixes are ".ogg" |
| OptionControls.WindowsBinaryCheckIsStricter | UI/OptionsWnd.cpp:183-196 | a binary the Windows check accepts is accepted elsewhere too, and the two agree on names ending in ".exe" |
| OptionControls.SuffixChecksExclusive | UI/OptionsWnd.cpp:124-170 | no name passes both the font and music checks, both the string-table and sound checks, or both the font and string-table checks |
| OptionControls.SuffixCheckOnAppendedName | UI/OptionsWnd.cpp:129-130 | an existing, usable non-directory named stem + suffix passes that suffix's check |
| OptionControls.SuffixCheckNameSplits | UI/OptionsWnd.cpp:129-130 | conversely, a name that passes a suffix check is its stem followed by that suffix |
| OptionControls.NewFileRow | UI/OptionsWnd.cpp:1208-1209 | a new row is bound to the given option, shows its stored value, and is red exactly when that value fails the check |
| OptionControls.Edited | UI/OptionsWnd.cpp:1196-1205 | a rejected edit turns the text red and stores nothing; an accepted edit restores the normal colour and stores the text under the row's option |
| OptionControls.EditKeepsRowConsistent | UI/OptionsWnd.cpp:1196-1209 | after any edit, the row is red exactly when its text fails the check |
| OptionControls.EditTouchesOnlyItsOption | UI/OptionsWnd.cpp:1202 | an edit changes no other option |
| OptionControls.EditIdempotent | UI/OptionsWnd.cpp:1196-1205 | repeating the same edit changes nothing more |
| Resolution.FormatMode | UI/OptionsWnd.cpp:1300 | the text of a width and height is one the row-selection parse turns back into exactly that width and height |
| Resolution.ParseMode | UI/OptionsWnd.cpp:1403-1409 | the parsed width and height are 32-bit ints; text that does not start with an integer gives 0 x 0 |
| Resolution.ParseFormatRoundTrip | UI/OptionsWnd.cpp:1403-1409 | parsing "W x H", with W and H printed as decimal 32-bit ints, gives back W and H |
| Resolution.ParseFallbacks | UI/OptionsWnd.cpp:1403-1411 | "native" gives 0 x 0; "800" gives width 800 and height 0, because the width is assigned before the separator fails |
| Resolution.NoSeparatorSetsOnlyWidth | UI/OptionsWnd.cpp:1403-1411 | for every 32-bit width, text after it that neither continues the number nor starts with " x " gives that width and height 0 |
| Resolution.LastIndexOf | UI/OptionsWnd.cpp:1303-1308 | the loop ends at -1 exactly when the text is not listed; otherwise at the last row equal to it |
| Resolution.CurrentResolutionIndex | UI/OptionsWnd.cpp:1303-1308 | the index is -1 exactly when the current mode is not listed; otherwise it is the last row equal to it |
| Resolution.InitialSelection | UI/OptionsWnd.cpp:1343-1344 | a row is selected exactly when the current mode is listed, and it is the last such row |
| Resolution.ModeSelected | UI/OptionsWnd.cpp:1395-1413 | no row leaves the database unchanged; a row stores its parsed width and height; no other option changes |
| Resolution.SelectingFormattedRow | UI/OptionsWnd.cpp:1395-1413 | selecting the row for w x h stores exactly w and h |
| Keys.DismissKeysAreNotModifiers | UI/OptionsWnd.cpp:1465 | Return, keypad Enter and Escape are not modifier keys |
| Keys.CatcherKeyPress | UI/OptionsWnd.cpp:212-224 | every press is recorded; the catcher finishes exactly when the key lies outside LCTRL..RGUI |
| Keys.GetKeypress | UI/OptionsWnd.cpp:212-230 | the result is the first non-modifier press with its modifiers; there is none exactly when every press is a modifier |
| Keys.SetHotkeyOption | UI/OptionsWnd.cpp:913-934 | Escape, or the combination already set, changes nothing. Any other combination becomes the hotkey's binding and shortcuts are rebuilt once. Defaults and other hotkeys are untouched |
| Keys.SetHotkeyIdempotent | UI/OptionsWnd.cpp:920-923 | setting the same combination twice equals setting it once |
| Keys.ResetHotkeyOption | UI/OptionsWnd.cpp:936-948 | a hotkey at its default is cleared; otherwise it is reset to its default; shortcuts are rebuilt; other hotkeys are untouched |
| Keys.ResetAlternates | UI/OptionsWnd.cpp:936-948 | after a first reset, resetting alternates between the default and the cleared binding, so two more resets come back to the same binding |
| Keys.DoneClicked | UI/OptionsWnd.cpp:1469-1472 | Done commits once and ends the modal loop |
| Keys.OptionsKeyPress | UI/OptionsWnd.cpp:1462-1467 | Return, keypad Enter and Escape act as Done; any other key changes nothing |
| SoundFeedback.InitializationFailure | UI/OptionsWnd.cpp:1524-1532 | both sound options are switched off; every existing check box is unchecked; one message is shown; the sound system and both volume options are unchanged |
| SoundFeedback.EffectsClicked | UI/OptionsWnd.cpp:1474-1488 | checking enables sound and the option, or on failure is an initialization failure. Unchecking clears the option; sound stays enabled only while music is on. Except on failure, the boxes, the volumes and the failure count are unchanged, and music playback is never touched |
| SoundFeedback.MusicClicked | UI/OptionsWnd.cpp:1490-1505 | checking enables sound and the option and starts music, or on failure is an initialization failure. Unchecking clears the option and stops music; sound stays enabled only while effects are on. Except on failure, the boxes, the volumes and the failure count are unchanged |
| SoundFeedback.MusicVolumeSlid | UI/OptionsWnd.cpp:1507-1510 | the music volume option and the sound system's music volume both become the position; the effects volume is untouched; the enable options, the sound system's enabled and playing flags, the boxes and the failure count are unchanged |
| SoundFeedback.EffectsVolumeSlid | UI/OptionsWnd.cpp:1512-1516 | the effects volume option and the sound system's effects volume both become the position; the music volume is untouched; the enable options, the sound system's enabled and playing flags, the boxes and the failure count are unchanged |
| SoundFeedback.TogglesKeepBoxesAgreeing | UI/OptionsWnd.cpp:1474-1532 | when each check box shows its option, clicking either box keeps that true, failures included |
| SoundFeedback.SwitchingOffSilences | UI/OptionsWnd.cpp:1483-1504 | when unchecking leaves both options off, sound is disabled, and music is stopped when music was unchecked |
| SoundFeedback.BothOffInEitherOrder | UI/OptionsWnd.cpp:1483-1504 | unchecking effects then music, or music then effects, leaves both options off, sound disabled and music stopped |
| MeterBar.MeterColor | UI/MultiMeterStatusBar.cpp:19-66 | every colour is opaque, and white exactly for the meter types without a colour of their own |
| MeterBar.ColourIdentifiesFamily | UI/MultiMeterStatusBar.cpp:19-66 | two meter types share a colour exactly when they belong to the same family (industry, research, ...) |
| MeterBar.ShownPairs | UI/MultiMeterStatusBar.cpp:205-209 | a pair is shown exactly when the object has its actual or its target meter |
| MeterBar.Collect | UI/MultiMeterStatusBar.cpp:205-221 | one value, target and colour per shown pair, in order. A missing actual meter reads as INVALID_VALUE for initial and projected; a missing target meter reads as INVALID_VALUE for the target |
| MeterBar.HeightFitsBars | UI/MultiMeterStatusBar.cpp:95-106 | the height leaves the same margin below the last bar as above the first; each extra bar adds one bar and one pad |
| MeterBar.Update | UI/MultiMeterStatusBar.cpp:192-226 | without the object, the values are cleared and colours and size are kept. With the object, the values are the collected ones; colours are appended after the old ones; the height uses the bar count modulo 256 |
| MeterBar.HeightOfShownBars | UI/MultiMeterStatusBar.cpp:203-224 | with fewer than 256 pairs, the height is that of the bars shown |
| MeterBar.UpdateKeepsColoursCovering | UI/MultiMeterStatusBar.cpp:192-221 | after an update there are at least as many colours as bars, so the indexing in `Render` stays in range |
| MeterBar.ColoursGrow | UI/MultiMeterStatusBar.cpp:192-221 | each update grows the colour list by the number of bars shown, whatever it held before |
| MeterBar.StaleColourWitness | UI/MultiMeterStatusBar.cpp:192-221 | after two updates, where the industry meters appear only at the second, bar 0 (industry) is drawn in the research colour |
| MeterBar.UpdateClearingColours | UI/MultiMeterStatusBar.cpp:192-226 | the corrected update: the object and meter types are kept; the colours are exactly the collected ones, as are the values; a missing object empties all values and colours and keeps the height |
| MeterBar.ClearedColoursMatchBars | UI/MultiMeterStatusBar.cpp:192-221 | with the corrected update, every bar is drawn in its own meter's colour |
| InGameMenu.ButtonWidth | UI/InGameMenu.cpp:95-108 | the width is at least 160 and at least every button's width, and equals 160 or one of them |
| InGameMenu.ButtonWidthIsLeastBound | UI/InGameMenu.cpp:95-108 | any bound that is at least 160 and at least every button's width is at least `ButtonWidth` |
| InGameMenu.ButtonCellHeight | UI/InGameMenu.cpp:110-113 | the cell height is at least 40 and at least the done button's height, and equals one of the two |
| InGameMenu.DoneOffset | UI/InGameMenu.cpp:133-134 | the done button's offset is seven eighths of a cell, rounded down |
| InGameMenu.DoLayout | UI/InGameMenu.cpp:115-137 | all five buttons span x 15 to 15 + width and are as tall as the done button. The first four start at y 12, one cell apart. Done starts seven eighths of a cell below options |
| InGameMenu.FirstFourStacked | UI/InGameMenu.cpp:115-131 | save, load/concede, resign and options do not overlap one another |
| InGameMenu.DoneOverlapsOptions | UI/InGameMenu.cpp:131-136 | done overlaps options exactly when the done button is taller than seven eighths of a cell |
| InGameMenu.DoneOverlapWitness | UI/InGameMenu.cpp:110-136 | a done button 40 px tall gives a 40 px cell, a 35 px offset and 5 shared rows |
| InGameMenu.StackedIsDisjoint | UI/InGameMenu.cpp:115-137 | buttons placed one strictly after another share no pixel |
| InGameMenu.DoLayoutSeparated | UI/InGameMenu.cpp:115-137 | the corrected layout: as written, but done starts at least its own height below options |
| InGameMenu.SeparatedLayoutIsDisjoint | UI/InGameMenu.cpp:115-137 | in the corrected layout no two buttons overlap, and it equals the layout as written whenever that one has no overlap |
| InGameMenu.MenuKeyPress | UI/InGameMenu.cpp:139-145 | the menu is done exactly when it already was or the key is Return, keypad Enter or Escape |
| InGameMenu.MenuAndOptionsShareDismissKeys | UI/InGameMenu.cpp:139-145 | the in-game menu and the options dialog close on exactly the same keys |
| InGameMenu.Save | UI/InGameMenu.cpp:147-182 | nothing happens unless saving is possible before the dialog. A save happens exactly when a file was chosen and saving is still possible; it uses that file. The menu closes only after a save that raised nothing. The "unable to save" message appears when saving became impossible while the dialog was open. An error raised by the save is shown to the user. The call list has exactly 0, 2, 3 or 4 entries: nothing, the orders and dialog, then the refusal message, or the save and then either the close or the error. With four calls, the third is always the save, so an error raised by the save is shown after it |
| InGameMenu.SaveIsWellOrdered | UI/InGameMenu.cpp:157-172 | orders are sent and a file is asked for before any save; the menu closes only directly after the save, as the last call |
| InGameMenu.NoSaveWithoutPermission | UI/InGameMenu.cpp:152-172 | whatever file is chosen, nothing is saved when `CanSaveNow` fails before or after the dialog |

## Left out

- Widget construction, layouts, list boxes, tabs, tooltips and every `Render` body: these are toolkit plumbing and OpenGL calls. Only the colour indexing of `MultiMeterStatusBar::Render` and its bar spacing are modelled.
- The floating-point range scaling and segment drawing in `MultiMeterStatusBar::Render`, and the 5.75 factor in `InGameMenu::CalculatePosition`: both are floating point. `CalculatePosition` is not modelled.
- Meter values are `real`, not 32-bit `float`. `INVALID_VALUE` is the exact value of `-FLT_MAX`.
- The filesystem calls `exists`, `is_directory` and `is_regular_file`, and path conversion. These are abstract sets of names. A name that makes path conversion throw is in the `unusable` set, which the catch-all turns into `false`. File dialogs, `RelativePath` and the browse button are left out.
- Options database persistence (`Commit`): Done is modelled as a commit counter.
- The sound device. `Enable`, `Disable`, `StopMusic` and the volume setters are flags in a record. `PlaySound` and `PlayMusic` are left out, apart from music being marked as playing.
- `SendPartialOrders`, `SaveGame`, `EliminateSelf`, `ResetToIntro`, `LoadSinglePlayerGame` and the message box: calls into the application. `Save` returns them as a list of calls. The `Load`, `Concede`, `Resign` and `Options` handlers are not modelled at all.
- Modal run loops and the atomic `m_modal_done`: a modal run is a sequence of key events (`GetKeypress`) or a `done` flag.
- The constructor of `InGameMenu`, which disables buttons and sets tooltips: widget state.
- Button texts, `PrettyPrint` and the string table's contents. The string table is a set of defined keys.
- `Hotkey`, `HotkeyManager`, `Meter`, `ObjectMap` and the GG key and colour headers are not part of this model. They appear as the datatypes `Hotkeys`, `Meter`, `UniverseObject`, `Key` and `Clr`. Key codes use the SDL2 scancode numbers for Return, Escape, keypad Enter and the LCTRL..RGUI modifier range.
- Logging: the `DebugLogger`/`ErrorLogger` calls in `InGameMenu::Save` (UI/InGameMenu.cpp:148-179) and `MultiMeterStatusBar::Update` (UI/MultiMeterStatusBar.cpp:199) have no effect on the state the model keeps.
- The logger drop-list option rows, font texture preview and colour options: display only.
- Keys.SetHotkeyOption: the binding stored is the combination exactly as pressed. `Hotkey::SetHotkey` is not part of this model, and the key catcher passes the modifiers on unnormalised. If the stored binding is normalised (left/right Ctrl merged, lock keys dropped), pressing the same raw combination again would rebind and rebuild again, which `Keys.SetHotkeyIdempotent` does not cover.
- InGameMenu.Save: an exception from the file dialog itself is not modelled; only `SaveGame` raising is.
- HotkeySections.SectionFor: the standard token split (`std::sregex_token_iterator` with index -1) is modelled as a leading empty token kept and a trailing one dropped.
- Resolution.FormatMode: `boost::format` of the width and height is modelled as plain decimal, which is what it prints for `int`.

## Findings

| source | as written | input that shows it | evidently intended | confidence | as-written member | corrected member |
|---|---|---|---|---|---|---|
| UI/InGameMenu.cpp:131-136 | the done button is placed `cell * 7 / 8` below the options button, but both are as tall as the done button, and the cell height can equal that height | done button minimum height 40: cell 40, offset 35, options and done share 5 rows | the done button starts below the options button | medium, not executed | InGameMenu.DoneOverlapWitness | InGameMenu.SeparatedLayoutIsDisjoint |
| UI/MultiMeterStatusBar.cpp:193-219 | `Update` clears the value vectors but not `m_bar_colours`, which it appends to; `Render` indexes the colours by bar number | meter pairs (industry, research): first update with only research meters, second with both; bar 0 (industry) is drawn in the research colour | the colours are cleared with the values, so bar i has the colour of meter i | high, not executed | MeterBar.StaleColourWitness | MeterBar.ClearedColoursMatchBars |

=== FILE: common.dfy ===
/** Small shared vocabulary: an optional value, the options database as a map,
    and the 32-bit `int` the C++ code stores in it. */
module Common {

  datatype Option<+T> = None | Some(value: T)

  /** A value held by the options database (`GetOptionsDB()`): the `int` and
      `std::string` options the modelled rows store. The sound options are
      fields of `SoundFeedback.SoundPanel`. */
  datatype OptionValue =
    | IntValue(i: int)
    | StringValue(s: string)

  /** The options database, keyed by option name; persistence is not modelled. */
  type OptionsDB = map<string, OptionValue>

  const INT32_MIN: int := -0x8000_0000
  const INT32_MAX: int := 0x7FFF_FFFF

  /** A C++ `int` on the supported platforms. */
  type Int32 = x: int | INT32_MIN <= x <= INT32_MAX
}

=== FILE: hotkey_sections.dfy ===
/** Which section of the keyboard-shortcuts page a hotkey is listed under
    (`ValidSectionForHotkey`) and the grouping of all hotkeys by section
    (`HotkeysBySection`). The string table is a set of defined keys:
    `UserStringExists(k)` is `k in table`. */
module HotkeySections {
  import opened Common
  import opened Text

  const SECTION_PREFIX: string := "HOTKEYS"
  const GENERAL_SECTION: string := "HOTKEYS_GENERAL"

  // ------------------------------------------------------------ splitting

  /** The tokens `std::sregex_token_iterator(name, regex("\\.+"), -1)` yields:
      the pieces between maximal runs of dots. A leading empty piece is kept,
      a trailing one is not, and a name without dots is one piece (even when
      it is empty). */
  function SplitDots(s: string): (nodes: seq<string>)
    ensures |nodes| >= 1
    ensures forall i :: 0 <= i < |nodes| ==> '.' !in nodes[i]
    ensures forall i :: 1 <= i < |nodes| ==> |nodes[i]| > 0
    ensures s != [] && s[0] != '.' ==> |nodes[0]| > 0
    decreases |s|
  {
    if s == [] then [[]]
    else if s[0] != '.' then
      var t := SplitDots(s[1..]);
      [[s[0]] + t[0]] + t[1..]
    else if |s| == 1 then [[]]
    else if s[1] == '.' then SplitDots(s[1..])
    else [[]] + SplitDots(s[1..])
  }

  /** The pieces glued back together with single dots. */
  function JoinDots(nodes: seq<string>): string
    requires |nodes| >= 1
  {
    if |nodes| == 1 then nodes[0] else nodes[0] + "." + JoinDots(nodes[1..])
  }

  /** Reference definition: drop every dot that is followed by another dot or
      ends the string, keep every other character. */
  function SqueezeDots(s: string): string
  {
    if s == [] then []
    else if s[0] != '.' || (|s| > 1 && s[1] != '.') then [s[0]] + SqueezeDots(s[1..])
    else SqueezeDots(s[1..])
  }

  lemma JoinConsFirst(c: char, t: seq<string>)
    requires |t| >= 1
    ensures JoinDots([[c] + t[0]] + t[1..]) == [c] + JoinDots(t)
  {
    if |t| > 1 {
      assert ([[c] + t[0]] + t[1..])[1..] == t[1..];
    }
  }

  /** Splitting then joining collapses dot runs and drops a trailing run:
      runs of dots act as a single separator. */
  lemma {:induction false} SplitJoin(s: string)
    ensures JoinDots(SplitDots(s)) == SqueezeDots(s)
    decreases |s|
  {
    if s == [] {
    } else if s[0] != '.' {
      SplitJoin(s[1..]);
      JoinConsFirst(s[0], SplitDots(s[1..]));
    } else if |s| == 1 {
    } else if s[1] == '.' {
      SplitJoin(s[1..]);
    } else {
      SplitJoin(s[1..]);
      assert ([[]] + SplitDots(s[1..]))[1..] == SplitDots(s[1..]);
    }
  }

  /** Doubling a dot anywhere in a name does not change its pieces. */
  lemma {:induction false} DotRunIsOneSeparator(u: string, v: string)
    ensures SplitDots(u + "." + v) == SplitDots(u + ".." + v)
    decreases |u|
  {
    if u == [] {
      assert ("" + ".." + v)[1..] == "" + "." + v;
    } else {
      assert (u + "." + v)[1..] == u[1..] + "." + v;
      assert (u + ".." + v)[1..] == u[1..] + ".." + v;
      DotRunIsOneSeparator(u[1..], v);
    }
  }

  /** A name without dots is a single piece. */
  lemma {:induction false} SplitNoDots(s: string)
    requires '.' !in s
    ensures SplitDots(s) == [s]
    decreases |s|
  {
    if s != [] {
      assert '.' !in s[1..];
      SplitNoDots(s[1..]);
      assert s == [s[0]] + s[1..];
    }
  }

  // ------------------------------------------------------------ prefixes

  /** The cumulative prefix `_A_B..` built from the first `k` pieces. */
  function Prefix(nodes: seq<string>, k: nat): (p: string)
    requires k <= |nodes|
    ensures |p| >= k
    ensures (forall i :: 0 <= i < |nodes| ==> '.' !in nodes[i]) ==> '.' !in p
  {
    if k == 0 then "" else Prefix(nodes, k - 1) + "_" + nodes[k - 1]
  }

  function SectionKey(prefix: string): string
  {
    SECTION_PREFIX + prefix
  }

  predicate IsSectionName(s: string)
  {
    |SECTION_PREFIX| <= |s| && s[..|SECTION_PREFIX|] == SECTION_PREFIX
  }

  /** Reference definition: the largest `k` in 1..`upTo` whose prefix key is
      defined, searching downwards. */
  function LongestKnown(nodes: seq<string>, table: set<string>, upTo: nat): (r: Option<nat>)
    requires upTo <= |nodes|
    ensures r.Some? ==> 1 <= r.value <= upTo && SectionKey(Prefix(nodes, r.value)) in table
    ensures r.Some? ==> forall j :: r.value < j <= upTo ==> SectionKey(Prefix(nodes, j)) !in table
    ensures r.None? <==> forall j :: 1 <= j <= upTo ==> SectionKey(Prefix(nodes, j)) !in table
  {
    if upTo == 0 then None
    else if SectionKey(Prefix(nodes, upTo)) in table then Some(upTo)
    else LongestKnown(nodes, table, upTo - 1)
  }

  function KeyOrGeneral(nodes: seq<string>, found: Option<nat>): string
    requires found.Some? ==> found.value <= |nodes|
  {
    match found
    case None => GENERAL_SECTION
    case Some(k) => SectionKey(Prefix(nodes, k))
  }

  /** The section a hotkey belongs to: the key of the longest cumulative
      prefix of its upper-cased, dot-split name that the string table
      defines, or "HOTKEYS_GENERAL" when there is none (or the name is empty). */
  function SectionFor(name: string, table: set<string>): (section: string)
    ensures IsSectionName(section)
    ensures var nodes := SplitDots(ToUpper(name));
      (name == [] || forall j :: 1 <= j <= |nodes| ==> SectionKey(Prefix(nodes, j)) !in table)
      ==> section == GENERAL_SECTION
    ensures var nodes := SplitDots(ToUpper(name));
      (name != [] && exists j :: 1 <= j <= |nodes| && SectionKey(Prefix(nodes, j)) in table)
      ==> (section in table
           && exists k :: 1 <= k <= |nodes| && section == SectionKey(Prefix(nodes, k))
                && forall j :: k < j <= |nodes| ==> SectionKey(Prefix(nodes, j)) !in table)
  {
    var nodes := SplitDots(ToUpper(name));
    if name == [] then GENERAL_SECTION
    else KeyOrGeneral(nodes, LongestKnown(nodes, table, |nodes|))
  }

  /** The loop's `current_node == name` exit can only fire for an empty name:
      a cumulative prefix never equals a non-empty upper-cased name. */
  lemma NoEarlyBreak(upper: string, i: nat)
    requires upper != []
    requires i < |SplitDots(upper)|
    ensures Prefix(SplitDots(upper), i) != upper
  {
    var nodes := SplitDots(upper);
    if '.' in upper {
      assert '.' !in Prefix(nodes, i);
    } else {
      SplitNoDots(upper);
    }
  }

  /** `ValidSectionForHotkey` as written: walk the pieces, growing the
      cumulative prefix, and overwrite the result whenever the prefix key is
      defined. */
  method ValidSectionForHotkey(hotkeyName: string, table: set<string>) returns (retval: string)
    ensures retval == SectionFor(hotkeyName, table)
    ensures IsSectionName(retval)
  {
    retval := GENERAL_SECTION;
    var name := ToUpper(hotkeyName);
    var nodes := SplitDots(name);
    var currentNode := "";
    var i := 0;
    while i < |nodes|
      invariant 0 <= i <= |nodes|
      invariant currentNode == Prefix(nodes, i)
      invariant retval == KeyOrGeneral(nodes, LongestKnown(nodes, table, i))
      invariant hotkeyName == [] ==> i == 0
    {
      if name != [] {
        NoEarlyBreak(name, i);
      }
      if currentNode == name {
        break;
      }
      currentNode := currentNode + "_" + nodes[i];
      assert currentNode == Prefix(nodes, i + 1);
      if SectionKey(currentNode) in table {
        retval := SectionKey(currentNode);
      }
      i := i + 1;
    }
  }

  /** Matching is case-insensitive: a name and its upper-cased form land in
      the same section. */
  lemma SectionIgnoresCase(name: string, table: set<string>)
    ensures SectionFor(name, table) == SectionFor(ToUpper(name), table)
  {
    ToUpperIdempotent(name);
  }

  /** A run of dots counts as one separator when choosing the section. */
  lemma SectionDotRuns(u: string, v: string, table: set<string>)
    ensures SectionFor(u + "." + v, table) == SectionFor(u + ".." + v, table)
  {
    ToUpperAppend(u + ".", v);
    ToUpperAppend(u, ".");
    ToUpperAppend(u + "..", v);
    ToUpperAppend(u, "..");
    assert ToUpper(".") == ".";
    assert ToUpper("..") == "..";
    DotRunIsOneSeparator(ToUpper(u), ToUpper(v));
  }

  // ------------------------------------------------------------ grouping

  /** Reference definition: the hotkeys of section `s`, in input order. */
  function Members(hotkeys: seq<string>, table: set<string>, s: string): (r: seq<string>)
    ensures forall h :: h in r <==> h in hotkeys && SectionFor(h, table) == s
  {
    if hotkeys == [] then []
    else
      var last := hotkeys[|hotkeys| - 1];
      var front := hotkeys[..|hotkeys| - 1];
      assert hotkeys == front + [last];
      Members(front, table, s) + (if SectionFor(last, table) == s then [last] else [])
  }

  /** `HotkeysBySection`: each hotkey is appended to the list of its section. */
  function HotkeysBySection(hotkeys: seq<string>, table: set<string>): (bySection: map<string, seq<string>>)
    ensures forall h :: h in hotkeys ==> SectionFor(h, table) in bySection
    ensures forall s :: s in bySection ==> bySection[s] == Members(hotkeys, table, s) && bySection[s] != []
    ensures forall s :: s !in bySection ==> Members(hotkeys, table, s) == []
  {
    if hotkeys == [] then map[]
    else
      var last := hotkeys[|hotkeys| - 1];
      var front := hotkeys[..|hotkeys| - 1];
      assert hotkeys == front + [last];
      var rest := HotkeysBySection(front, table);
      var section := SectionFor(last, table);
      rest[section := (if section in rest then rest[section] else []) + [last]]
  }

  /** Every hotkey is listed in exactly one section, the one `SectionFor` picks. */
  lemma HotkeyInExactlyOneSection(hotkeys: seq<string>, table: set<string>, h: string)
    requires h in hotkeys
    ensures var m := HotkeysBySection(hotkeys, table);
      SectionFor(h, table) in m && h in m[SectionFor(h, table)]
      && forall s :: s in m && h in m[s] ==> s == SectionFor(h, table)
  {
  }

  /** Grouping keeps input order: appending a hotkey appends it at the end of
      its own section and leaves every other section as it was. */
  lemma {:induction false} GroupingAppends(hotkeys: seq<string>, table: set<string>, h: string)
    ensures var before := HotkeysBySection(hotkeys, table);
      var after := HotkeysBySection(hotkeys + [h], table);
      var s := SectionFor(h, table);
      after[s] == (if s in before then before[s] else []) + [h]
      && forall t :: t != s ==> (t in after <==> t in before) && (t in before ==> after[t] == before[t])
  {
    assert (hotkeys + [h])[..|hotkeys|] == hotkeys;
  }
}

=== FILE: in_game_menu.dfy ===
/** The in-game menu: the width and cell height of its five buttons, their
    vertical stacking, the keys that close it, and the guard around saving. */
module InGameMenu {
  import opened Common
  import opened Keys

  // ------------------------------------------------------------ sizes

  /** A button's minimum usable size, in pixels. */
  datatype Size = Size(w: nat, h: nat)

  /** The minimum usable sizes of the menu's five buttons. */
  datatype MenuButtons = MenuButtons(save: Size, loadOrConcede: Size, options: Size, resign: Size, done: Size)

  const MIN_BUTTON_WIDTH: nat := 160
  const MIN_BUTTON_HEIGHT: nat := 40
  const BUTTON_LEFT: int := 15
  const BUTTON_TOP: int := 12

  function Max(a: nat, b: nat): nat
  {
    if a < b then b else a
  }

  /** `ButtonWidth`: the widest minimum width among the buttons, but never
      narrower than MIN_BUTTON_WIDTH. */
  function ButtonWidth(b: MenuButtons): (w: nat)
    ensures w >= MIN_BUTTON_WIDTH
    ensures w >= b.save.w && w >= b.loadOrConcede.w && w >= b.options.w && w >= b.resign.w && w >= b.done.w
    ensures w == MIN_BUTTON_WIDTH || w == b.save.w || w == b.loadOrConcede.w || w == b.options.w
         || w == b.resign.w || w == b.done.w
  {
    var w := Max(Max(Max(Max(Max(0, b.save.w), b.loadOrConcede.w), b.options.w), b.resign.w), b.done.w);
    Max(MIN_BUTTON_WIDTH, w)
  }

  /** `ButtonCellHeight`: the done button's minimum height, but never lower
      than MIN_BUTTON_HEIGHT. Only the done button is consulted. */
  function ButtonCellHeight(b: MenuButtons): (h: nat)
    ensures h >= MIN_BUTTON_HEIGHT && h >= b.done.h
    ensures h == MIN_BUTTON_HEIGHT || h == b.done.h
  {
    Max(MIN_BUTTON_HEIGHT, b.done.h)
  }

  /** Any bound that is at least 160 and at least every button's width is at
      least `ButtonWidth`: it is the least such bound. */
  lemma ButtonWidthIsLeastBound(b: MenuButtons, bound: nat)
    requires bound >= MIN_BUTTON_WIDTH
    requires bound >= b.save.w && bound >= b.loadOrConcede.w && bound >= b.options.w
    requires bound >= b.resign.w && bound >= b.done.w
    ensures ButtonWidth(b) <= bound
  {
  }

  // ------------------------------------------------------------ layout

  /** A window rectangle: left/top inclusive, right/bottom exclusive. */
  datatype Rect = Rect(left: int, top: int, right: int, bottom: int)

  /** The five button rectangles, top to bottom as placed. */
  datatype MenuLayout = MenuLayout(save: Rect, loadOrConcede: Rect, resign: Rect, options: Rect, done: Rect)

  /** Two rectangles share at least one pixel. */
  predicate Overlaps(r: Rect, s: Rect)
  {
    r.left < s.right && s.left < r.right && r.top < s.bottom && s.top < r.bottom
  }

  function Rects(l: MenuLayout): seq<Rect>
  {
    [l.save, l.loadOrConcede, l.resign, l.options, l.done]
  }

  /** No two buttons of the layout share a pixel. */
  predicate Disjoint(l: MenuLayout)
  {
    forall i, j :: 0 <= i < j < 5 ==> !Overlaps(Rects(l)[i], Rects(l)[j])
  }

  /** Each button ends no lower than the next one starts. */
  predicate Stacked(l: MenuLayout)
  {
    && l.save.top <= l.save.bottom <= l.loadOrConcede.top
    && l.loadOrConcede.top <= l.loadOrConcede.bottom <= l.resign.top
    && l.resign.top <= l.resign.bottom <= l.options.top
    && l.options.top <= l.options.bottom <= l.done.top
    && l.done.top <= l.done.bottom
  }

  /** Stacking is enough for disjointness: the buttons' vertical extents
      follow one another. */
  lemma StackedIsDisjoint(l: MenuLayout)
    requires Stacked(l)
    ensures Disjoint(l)
  {
  }

  /** Places the five buttons one under the other, from a given offset of
      the done button below the options button. */
  function StackButtons(b: MenuButtons, doneOffset: int): MenuLayout
  {
    var left := BUTTON_LEFT;
    var right := BUTTON_LEFT + ButtonWidth(b);
    var h := b.done.h;
    var cell := ButtonCellHeight(b);
    var optionsTop := BUTTON_TOP + 3 * cell;
    MenuLayout(
      Rect(left, BUTTON_TOP, right, BUTTON_TOP + h),
      Rect(left, BUTTON_TOP + cell, right, BUTTON_TOP + cell + h),
      Rect(left, BUTTON_TOP + 2 * cell, right, BUTTON_TOP + 2 * cell + h),
      Rect(left, optionsTop, right, optionsTop + h),
      Rect(left, optionsTop + doneOffset, right, optionsTop + doneOffset + h))
  }

  /** The gap `DoLayout` leaves between the options and the done button's
      tops: seven eighths of a cell, rounded down. */
  function DoneOffset(b: MenuButtons): (d: nat)
    ensures 8 * d <= 7 * ButtonCellHeight(b) < 8 * d + 8
  {
    ButtonCellHeight(b) * 7 / 8
  }

  /** Every button of a layout is as wide as `ButtonWidth` from x = 15 and as
      tall as the done button's minimum height, and the first four start one
      cell apart from y = 12. */
  predicate SharedGeometry(b: MenuButtons, l: MenuLayout)
  {
    var cell := ButtonCellHeight(b);
    && (forall i :: 0 <= i < 5 ==>
          && Rects(l)[i].left == BUTTON_LEFT
          && Rects(l)[i].right == BUTTON_LEFT + ButtonWidth(b)
          && Rects(l)[i].bottom - Rects(l)[i].top == b.done.h)
    && l.save.top == BUTTON_TOP
    && l.loadOrConcede.top == l.save.top + cell
    && l.resign.top == l.loadOrConcede.top + cell
    && l.options.top == l.resign.top + cell
  }

  /** `DoLayout`, as written: the done button is placed seven eighths of a
      cell below the options button. */
  function DoLayout(b: MenuButtons): (l: MenuLayout)
    ensures SharedGeometry(b, l)
    ensures l.done.top == l.options.top + DoneOffset(b)
  {
    StackButtons(b, DoneOffset(b))
  }

  /** The first four buttons never overlap: each is as tall as the done
      button, and the cell height is at least that. */
  lemma FirstFourStacked(b: MenuButtons)
    ensures var l := DoLayout(b);
      && l.save.bottom <= l.loadOrConcede.top
      && l.loadOrConcede.bottom <= l.resign.top
      && l.resign.bottom <= l.options.top
  {
  }

  /** As written, the done button overlaps the options button exactly when
      the done button is taller than seven eighths of a cell. */
  lemma DoneOverlapsOptions(b: MenuButtons)
    ensures Overlaps(DoLayout(b).options, DoLayout(b).done) <==> b.done.h > DoneOffset(b)
  {
  }

  /** A done button 40 pixels tall: the cell is 40, the done button starts
      35 pixels below the options button, and the two share 5 rows. */
  lemma DoneOverlapWitness()
    ensures var b := MenuButtons(Size(100, 30), Size(100, 30), Size(100, 30), Size(100, 30), Size(100, 40));
      && ButtonCellHeight(b) == 40
      && DoLayout(b).done.top == DoLayout(b).options.top + 35
      && DoLayout(b).options.bottom - DoLayout(b).done.top == 5
      && Overlaps(DoLayout(b).options, DoLayout(b).done)
  {
  }

  /** `DoLayout` with the done button's offset raised to at least its own
      height, so that it always starts below the options button. */
  function DoLayoutSeparated(b: MenuButtons): (l: MenuLayout)
    ensures SharedGeometry(b, l)
    ensures l.done.top == l.options.top + Max(DoneOffset(b), b.done.h)
  {
    StackButtons(b, Max(DoneOffset(b), b.done.h))
  }

  /** The separated layout never lets two buttons overlap, and it is the
      as-written layout whenever that one has no overlap. */
  lemma SeparatedLayoutIsDisjoint(b: MenuButtons)
    ensures Disjoint(DoLayoutSeparated(b))
    ensures !Overlaps(DoLayout(b).options, DoLayout(b).done) ==> DoLayoutSeparated(b) == DoLayout(b)
  {
    StackedIsDisjoint(DoLayoutSeparated(b));
    DoneOverlapsOptions(b);
  }

  // ------------------------------------------------------------ keys

  /** The menu's modal state: whether its loop was told to end. */
  datatype Menu = Menu(done: bool)

  /** `InGameMenu::KeyPress`: Return, keypad Enter and Escape act as Done;
      other keys leave the menu as it is. */
  function MenuKeyPress(m: Menu, k: Key): (m': Menu)
    ensures m'.done <==> m.done || IsDismissKey(k)
  {
    if k == KEY_RETURN || k == KEY_KP_ENTER || k == KEY_ESCAPE then Menu(true) else m
  }

  /** The menu and the options dialog are dismissed by the same keys. */
  lemma MenuAndOptionsShareDismissKeys(k: Key, d: OptionsDialog)
    requires !d.done
    ensures MenuKeyPress(Menu(false), k).done == OptionsKeyPress(d, k).done
  {
  }

  // ------------------------------------------------------------ saving

  /** What `InGameMenu::Save` asks of the client application, in order. */
  datatype AppCall =
    | SendPartialOrders
    | AskFilename(singlePlayer: bool)
    | SaveGame(file: string)
    | CloseMenu
    | ShowError(message: string)

  /** The user-string key of the message shown when saving became
      impossible while the file dialog was open. */
  const UNABLE_TO_SAVE: string := "UNABLE_TO_SAVE_NOW_TRY_AGAIN"

  /** The answers `Save` receives: `CanSaveNow` before and after the dialog,
      the kind of game, the file the dialog returned ("" when cancelled), and
      the error `SaveGame` raises, if any. */
  datatype SaveContext = SaveContext(
    canSaveBefore: bool,
    singlePlayer: bool,
    chosenFile: string,
    canSaveAfter: bool,
    saveError: Option<string>)

  predicate SavesGame(calls: seq<AppCall>)
  {
    exists i :: 0 <= i < |calls| && calls[i].SaveGame?
  }

  /** `InGameMenu::Save`, as the sequence of calls it makes. */
  function Save(ctx: SaveContext): (calls: seq<AppCall>)
    ensures !ctx.canSaveBefore ==> calls == []
    ensures ctx.canSaveBefore ==>
              |calls| >= 2 && calls[0] == SendPartialOrders && calls[1] == AskFilename(ctx.singlePlayer)
    ensures SavesGame(calls) <==> ctx.canSaveBefore && ctx.chosenFile != [] && ctx.canSaveAfter
    ensures forall i :: 0 <= i < |calls| && calls[i].SaveGame? ==> calls[i].file == ctx.chosenFile
    ensures CloseMenu in calls <==> SavesGame(calls) && ctx.saveError.None?
    ensures ShowError(UNABLE_TO_SAVE) in calls <==>
              || (ctx.canSaveBefore && ctx.chosenFile != [] && !ctx.canSaveAfter)
              || (SavesGame(calls) && ctx.saveError == Some(UNABLE_TO_SAVE))
    ensures SavesGame(calls) && ctx.saveError.Some? ==> ShowError(ctx.saveError.value) in calls
    ensures |calls| == 4 ==> calls[2] == SaveGame(ctx.chosenFile)
    ensures |calls| == (if !ctx.canSaveBefore then 0
                        else if ctx.chosenFile == [] then 2
                        else if !ctx.canSaveAfter then 3
                        else 4)
  {
    if !ctx.canSaveBefore then
      []
    else
      var asked := [SendPartialOrders, AskFilename(ctx.singlePlayer)];
      if ctx.chosenFile == [] then
        asked
      else if !ctx.canSaveAfter then
        asked + [ShowError(UNABLE_TO_SAVE)]
      else
        match ctx.saveError
        case None =>
          var calls := asked + [SaveGame(ctx.chosenFile), CloseMenu];
          assert calls[2].SaveGame?;
          calls
        case Some(e) =>
          var calls := asked + [SaveGame(ctx.chosenFile), ShowError(e)];
          assert calls[2].SaveGame?;
          calls
  }

  /** Every call sequence of `Save` is in the order the menu needs: orders
      are sent and a file asked for before anything is saved, and the menu
      closes only right after a save. */
  predicate WellOrdered(calls: seq<AppCall>)
  {
    && (forall i :: 0 <= i < |calls| && calls[i].SaveGame? ==>
          i >= 2 && calls[0] == SendPartialOrders && calls[1].AskFilename?)
    && (forall i :: 0 <= i < |calls| && calls[i] == CloseMenu ==>
          i >= 1 && calls[i - 1].SaveGame? && i == |calls| - 1)
  }

  lemma SaveIsWellOrdered(ctx: SaveContext)
    ensures WellOrdered(Save(ctx))
  {
  }

  /** Whatever the dialog returns, nothing is saved unless `CanSaveNow`
      holds both before the dialog opens and after it closes. */
  lemma NoSaveWithoutPermission(ctx: SaveContext)
    requires !ctx.canSaveBefore || !ctx.canSaveAfter
    ensures forall i :: 0 <= i < |Save(ctx)| ==> !Save(ctx)[i].SaveGame?
  {
  }
}

=== FILE: keys.dfy ===
/** Keyboard handling of the options dialog: the modal `KeyPressCatcher`
    that waits for a non-modifier key, the left-click (set) and right-click
    (reset) handlers of a hotkey button, and the keys that close the options
    dialog. Key codes follow SDL2 scancode numbering; only their order and
    distinctness matter to the rules below. */
module Keys {
  import opened Common

  type Key = int

  const KEY_NONE: Key := 0
  const KEY_RETURN: Key := 40
  const KEY_ESCAPE: Key := 41
  const KEY_KP_ENTER: Key := 88
  /** The modifier keys occupy LCONTROL .. RGUI. */
  const KEY_LCONTROL: Key := 224
  const KEY_RGUI: Key := 231

  datatype ModKey = LShift | RShift | LCtrl | RCtrl | LAlt | RAlt | LMeta | RMeta | NumLock | CapsLock | AltGrMode

  /** A key together with the modifier flags held with it. */
  datatype Combo = Combo(key: Key, mods: set<ModKey>)

  const CLEARED: Combo := Combo(KEY_NONE, {})

  datatype KeyEvent = KeyEvent(key: Key, codePoint: nat, mods: set<ModKey>)

  predicate IsModifier(k: Key)
  {
    KEY_LCONTROL <= k <= KEY_RGUI
  }

  /** Return, keypad Enter and Escape act as the Done button. */
  predicate IsDismissKey(k: Key)
  {
    k == KEY_RETURN || k == KEY_KP_ENTER || k == KEY_ESCAPE
  }

  lemma DismissKeysAreNotModifiers(k: Key)
    requires IsDismissKey(k)
    ensures !IsModifier(k)
  {
  }

  // ------------------------------------------------------------ catcher

  datatype Catcher = Catcher(key: Key, codePoint: nat, mods: set<ModKey>, done: bool)

  const FRESH_CATCHER: Catcher := Catcher(KEY_NONE, 0, {}, false)

  /** `KeyPressCatcher::KeyPress`: records the press; ends the modal loop
      unless the key is a modifier. */
  function CatcherKeyPress(c: Catcher, e: KeyEvent): (c': Catcher)
    ensures c'.key == e.key && c'.codePoint == e.codePoint && c'.mods == e.mods
    ensures c'.done <==> c.done || !IsModifier(e.key)
  {
    Catcher(e.key, e.codePoint, e.mods, c.done || KEY_LCONTROL > e.key || KEY_RGUI < e.key)
  }

  /** `GetKeypress`: feed presses to a fresh catcher until its loop ends, and
      return the key and modifiers it holds then. `None` means the presses
      ran out while only modifiers had been pressed. */
  method GetKeypress(presses: seq<KeyEvent>) returns (r: Option<Combo>)
    ensures r.None? <==> forall i :: 0 <= i < |presses| ==> IsModifier(presses[i].key)
    ensures r.Some? ==>
              exists i :: && 0 <= i < |presses| && !IsModifier(presses[i].key)
                          && r.value == Combo(presses[i].key, presses[i].mods)
                          && forall j :: 0 <= j < i ==> IsModifier(presses[j].key)
  {
    var c := FRESH_CATCHER;
    var n := 0;
    while n < |presses| && !c.done
      invariant 0 <= n <= |presses|
      invariant forall j :: 0 <= j < n - 1 ==> IsModifier(presses[j].key)
      invariant !c.done ==> forall j :: 0 <= j < n ==> IsModifier(presses[j].key)
      invariant c.done ==>
                  && n > 0 && !IsModifier(presses[n - 1].key)
                  && c.key == presses[n - 1].key && c.mods == presses[n - 1].mods
    {
      c := CatcherKeyPress(c, presses[n]);
      n := n + 1;
    }
    if c.done {
      r := Some(Combo(c.key, c.mods));
    } else {
      r := None;
    }
  }

  // ------------------------------------------------------------ hotkeys

  /** A named hotkey: its current binding and its default binding. */
  datatype Hotkey = Hotkey(current: Combo, default: Combo)

  /** The registered hotkeys, and how many times the shortcut table was rebuilt. */
  datatype Hotkeys = Hotkeys(named: map<string, Hotkey>, rebuilds: nat)

  /** `HandleSetHotkeyOption` after the catcher returned `pressed`: Escape
      aborts, an unchanged combination changes nothing, anything else is
      bound and the shortcuts are rebuilt. */
  function SetHotkeyOption(hk: Hotkeys, name: string, pressed: Combo): (hk': Hotkeys)
    requires name in hk.named
    ensures pressed.key == KEY_ESCAPE || hk.named[name].current == pressed ==> hk' == hk
    ensures pressed.key != KEY_ESCAPE ==> name in hk'.named && hk'.named[name].current == pressed
    ensures pressed.key != KEY_ESCAPE && hk.named[name].current != pressed ==> hk'.rebuilds == hk.rebuilds + 1
    ensures name in hk'.named && hk'.named[name].default == hk.named[name].default
    ensures forall other :: other != name ==>
              && (other in hk'.named <==> other in hk.named)
              && (other in hk.named ==> hk'.named[other] == hk.named[other])
  {
    if pressed.key == KEY_ESCAPE then hk
    else
      var hotkey := hk.named[name];
      if hotkey.current == pressed then hk
      else Hotkeys(hk.named[name := hotkey.(current := pressed)], hk.rebuilds + 1)
  }

  /** Binding the same combination twice is binding it once. */
  lemma SetHotkeyIdempotent(hk: Hotkeys, name: string, pressed: Combo)
    requires name in hk.named
    ensures SetHotkeyOption(SetHotkeyOption(hk, name, pressed), name, pressed) == SetHotkeyOption(hk, name, pressed)
  {
  }

  /** `HandleResetHotkeyOption`: a hotkey at its default is cleared, any
      other is put back to its default; the shortcuts are rebuilt. */
  function ResetHotkeyOption(hk: Hotkeys, name: string): (hk': Hotkeys)
    requires name in hk.named
    ensures name in hk'.named && hk'.named[name].default == hk.named[name].default
    ensures hk.named[name].current != hk.named[name].default ==> hk'.named[name].current == hk.named[name].default
    ensures hk.named[name].current == hk.named[name].default ==> hk'.named[name].current == CLEARED
    ensures hk'.rebuilds == hk.rebuilds + 1
    ensures forall other :: other != name ==>
              && (other in hk'.named <==> other in hk.named)
              && (other in hk.named ==> hk'.named[other] == hk.named[other])
  {
    var hotkey := hk.named[name];
    var isDefault := hotkey.current == hotkey.default;
    Hotkeys(hk.named[name := hotkey.(current := if isDefault then CLEARED else hotkey.default)], hk.rebuilds + 1)
  }

  /** After a first reset, resetting alternates between the default and the
      cleared binding: two more resets come back to the same binding. */
  lemma ResetAlternates(hk: Hotkeys, name: string)
    requires name in hk.named
    ensures var once := ResetHotkeyOption(hk, name);
      var thrice := ResetHotkeyOption(ResetHotkeyOption(once, name), name);
      thrice.named[name] == once.named[name]
  {
  }

  // ------------------------------------------------------------ dialog

  /** The options dialog's modal state: how many times the options were
      committed, and whether the modal loop was told to end. */
  datatype OptionsDialog = OptionsDialog(commits: nat, done: bool)

  /** `DoneClicked`: commit the options, end the modal loop. */
  function DoneClicked(d: OptionsDialog): (d': OptionsDialog)
    ensures d'.done && d'.commits == d.commits + 1
  {
    OptionsDialog(d.commits + 1, true)
  }

  /** `OptionsWnd::KeyPress`: the dismiss keys act as Done, others are ignored. */
  function OptionsKeyPress(d: OptionsDialog, k: Key): (d': OptionsDialog)
    ensures IsDismissKey(k) ==> d'.done && d'.commits == d.commits + 1
    ensures !IsDismissKey(k) ==> d' == d
  {
    if k == KEY_ESCAPE || k == KEY_RETURN || k == KEY_KP_ENTER then DoneClicked(d) else d
  }
}

=== FILE: meter_bar.dfy ===
/** `MultiMeterStatusBar`: a stack of horizontal bars, one per
    (actual, target) meter-type pair that the watched object has. `Update`
    collects the values the bars show; `MeterColor` picks a bar's colour. */
module MeterBar {

  datatype MeterType =
    | Industry | TargetIndustry
    | Research | TargetResearch
    | Influence | TargetInfluence
    | Shield | MaxShield
    | Defense | MaxDefense
    | Troops | MaxTroops | RebelTroops
    | Detection
    | Stealth
    | Happiness | TargetHappiness
    | Supply | MaxSupply
    | Stockpile | MaxStockpile
    | Construction | TargetConstruction
    | Population | TargetPopulation
    /** Every meter type the colour switch does not name. */
    | OtherMeter(id: int)

  type Channel = x: int | 0 <= x < 256

  datatype Clr = Clr(r: Channel, g: Channel, b: Channel, a: Channel)

  const WHITE: Clr := Clr(255, 255, 255, 255)

  /** The groups of meter types that share a bar colour. */
  datatype MeterFamily =
    | IndustryFamily | ResearchFamily | InfluenceFamily | ShieldFamily | DefenseFamily
    | TroopsFamily | DetectionFamily | StealthFamily | HappinessFamily | Uncoloured

  /** Reference grouping: an actual meter and its target or maximum belong
      together; the troop meters form one group; everything else is
      uncoloured. */
  function Family(m: MeterType): MeterFamily
  {
    match m
    case Industry | TargetIndustry => IndustryFamily
    case Research | TargetResearch => ResearchFamily
    case Influence | TargetInfluence => InfluenceFamily
    case Shield | MaxShield => ShieldFamily
    case Defense | MaxDefense => DefenseFamily
    case Troops | MaxTroops | RebelTroops => TroopsFamily
    case Detection => DetectionFamily
    case Stealth => StealthFamily
    case Happiness | TargetHappiness => HappinessFamily
    case _ => Uncoloured
  }

  /** `MeterColor`: total over meter types, fully opaque, white exactly for
      the uncoloured ones. */
  function MeterColor(m: MeterType): (c: Clr)
    ensures c.a == 255
    ensures c == WHITE <==> Family(m) == Uncoloured
  {
    match m
    case Industry | TargetIndustry => Clr(240, 90, 0, 255)
    case Research | TargetResearch => Clr(0, 255, 255, 255)
    case Influence | TargetInfluence => Clr(255, 200, 0, 255)
    case Shield | MaxShield => Clr(0, 255, 186, 255)
    case Defense | MaxDefense => Clr(255, 0, 0, 255)
    case Troops | MaxTroops | RebelTroops => Clr(168, 107, 0, 255)
    case Detection => Clr(191, 255, 0, 255)
    case Stealth => Clr(174, 0, 255, 255)
    case Happiness | TargetHappiness => Clr(255, 255, 0, 255)
    case _ => WHITE
  }

  /** Two meter types get the same colour exactly when they are in the same
      family: paired meters match, and no two families share a colour. */
  lemma ColourIdentifiesFamily(x: MeterType, y: MeterType)
    ensures MeterColor(x) == MeterColor(y) <==> Family(x) == Family(y)
  {
  }

  // ------------------------------------------------------------ values

  /** `-std::numeric_limits<float>::max()`, the "no value" marker. */
  const INVALID_VALUE: real := -340282346638528859811704183484516925440.0

  /** A meter's value at the start of the turn and its projected value. */
  datatype Meter = Meter(initial: real, current: real)

  datatype UniverseObject = UniverseObject(meters: map<MeterType, Meter>)

  type MeterPair = (MeterType, MeterType)

  function InitialOf(meters: map<MeterType, Meter>, t: MeterType): real
  {
    if t in meters then meters[t].initial else INVALID_VALUE
  }

  function CurrentOf(meters: map<MeterType, Meter>, t: MeterType): real
  {
    if t in meters then meters[t].current else INVALID_VALUE
  }

  predicate Shown(meters: map<MeterType, Meter>, pair: MeterPair)
  {
    pair.0 in meters || pair.1 in meters
  }

  /** Reference definition: the pairs that get a bar, in order. */
  function ShownPairs(pairs: seq<MeterPair>, meters: map<MeterType, Meter>): (shown: seq<MeterPair>)
    ensures |shown| <= |pairs|
    ensures forall p :: p in shown <==> p in pairs && Shown(meters, p)
  {
    if pairs == [] then []
    else
      var front := pairs[..|pairs| - 1];
      var last := pairs[|pairs| - 1];
      assert pairs == front + [last];
      ShownPairs(front, meters) + (if Shown(meters, last) then [last] else [])
  }

  /** What one pass of `Update`'s loop collects. */
  datatype Collected = Collected(initial: seq<real>, projected: seq<real>, target: seq<real>, colours: seq<Clr>)

  /** A collection of the bar data for `shown`, entry by entry. */
  predicate CollectedFrom(c: Collected, shown: seq<MeterPair>, meters: map<MeterType, Meter>)
  {
    && |c.initial| == |shown| && |c.projected| == |shown| && |c.target| == |shown| && |c.colours| == |shown|
    && forall i :: 0 <= i < |shown| ==>
         && c.initial[i] == InitialOf(meters, shown[i].0)
         && c.projected[i] == CurrentOf(meters, shown[i].0)
         && c.target[i] == CurrentOf(meters, shown[i].1)
         && c.colours[i] == MeterColor(shown[i].0)
  }

  /** The loop over `m_meter_types`: every pair with at least one meter
      present pushes one entry onto each sequence. */
  function Collect(pairs: seq<MeterPair>, meters: map<MeterType, Meter>): (c: Collected)
    ensures CollectedFrom(c, ShownPairs(pairs, meters), meters)
  {
    if pairs == [] then Collected([], [], [], [])
    else
      var c := Collect(pairs[..|pairs| - 1], meters);
      var (actual, target) := pairs[|pairs| - 1];
      if actual in meters || target in meters then
        Collected(c.initial + [InitialOf(meters, actual)],
                  c.projected + [CurrentOf(meters, actual)],
                  c.target + [CurrentOf(meters, target)],
                  c.colours + [MeterColor(actual)])
      else c
  }

  // ------------------------------------------------------------ height

  const EDGE_PAD: int := 3
  const BAR_PAD: int := 1
  const BAR_HEIGHT: int := 10

  /** The height formula of `Update` for a bar count. */
  function StackHeight(numBars: int): int
  {
    numBars * BAR_HEIGHT + (numBars - 1) * BAR_PAD + 2 * EDGE_PAD - 2
  }

  /** Top of bar `i` below the client top, as `Render` steps down the bars. */
  function BarTop(i: nat): int
  {
    EDGE_PAD - 1 + i * (BAR_HEIGHT + BAR_PAD)
  }

  /** The height leaves the same margin, EDGE_PAD - 1, below the last bar
      as `Render` leaves above the first, and each extra bar adds one bar
      and one pad. */
  lemma HeightFitsBars(n: nat)
    requires n >= 1
    ensures BarTop(n - 1) + BAR_HEIGHT + (EDGE_PAD - 1) == StackHeight(n)
    ensures StackHeight(n + 1) == StackHeight(n) + BAR_HEIGHT + BAR_PAD
  {
  }

  // ------------------------------------------------------------ widget

  datatype MeterStatusBar = MeterStatusBar(
    objectId: int,
    meterTypes: seq<MeterPair>,
    initialValues: seq<real>,
    projectedValues: seq<real>,
    targetValues: seq<real>,
    barColours: seq<Clr>,
    height: int)

  /** `MultiMeterStatusBar::Update`, as written. The three value sequences
      are cleared and refilled, but `m_bar_colours` is only appended to. The
      bar counter is a `uint8_t`, so the height uses the count modulo 256.
      A missing object leaves the value sequences empty and the size as it was. */
  function Update(bar: MeterStatusBar, objects: map<int, UniverseObject>): (bar': MeterStatusBar)
    ensures bar'.objectId == bar.objectId && bar'.meterTypes == bar.meterTypes
    ensures bar.objectId !in objects ==>
              && bar'.initialValues == [] && bar'.projectedValues == [] && bar'.targetValues == []
              && bar'.barColours == bar.barColours && bar'.height == bar.height
    ensures bar.objectId in objects ==>
              var meters := objects[bar.objectId].meters;
              var shown := ShownPairs(bar.meterTypes, meters);
              && |bar'.barColours| == |bar.barColours| + |shown|
              && CollectedFrom(Collected(bar'.initialValues, bar'.projectedValues, bar'.targetValues,
                                         bar'.barColours[|bar.barColours|..]), shown, meters)
              && bar'.barColours[..|bar.barColours|] == bar.barColours
              && bar'.height == StackHeight(|shown| % 256)
  {
    if bar.objectId !in objects then
      bar.(initialValues := [], projectedValues := [], targetValues := [])
    else
      var c := Collect(bar.meterTypes, objects[bar.objectId].meters);
      var numBars := |c.initial| % 256;
      assert (bar.barColours + c.colours)[|bar.barColours|..] == c.colours;
      MeterStatusBar(bar.objectId, bar.meterTypes, c.initial, c.projected, c.target,
                     bar.barColours + c.colours, StackHeight(numBars))
  }

  /** Below 256 bars the height is that of the bars actually shown. */
  lemma HeightOfShownBars(bar: MeterStatusBar, objects: map<int, UniverseObject>)
    requires bar.objectId in objects
    requires |bar.meterTypes| < 256
    ensures Update(bar, objects).height == StackHeight(|Update(bar, objects).initialValues|)
  {
  }

  /** The colour `Render` draws bar `i` with. */
  function RenderColour(bar: MeterStatusBar, i: nat): Clr
    requires i < |bar.barColours|
  {
    bar.barColours[i]
  }

  /** `Render` indexes `m_bar_colours` for every bar; `Update` keeps at
      least that many colours. */
  predicate ColoursCoverBars(bar: MeterStatusBar)
  {
    |bar.barColours| >= |bar.initialValues|
  }

  lemma UpdateKeepsColoursCovering(bar: MeterStatusBar, objects: map<int, UniverseObject>)
    ensures ColoursCoverBars(Update(bar, objects))
  {
  }

  /** `m_bar_colours` grows on every update by the number of bars shown. */
  lemma ColoursGrow(bar: MeterStatusBar, objects: map<int, UniverseObject>)
    requires bar.objectId in objects
    ensures |Update(bar, objects).barColours| == |bar.barColours| + |Update(bar, objects).initialValues|
  {
  }

  const WITNESS_PAIRS: seq<MeterPair> := [(Industry, TargetIndustry), (Research, TargetResearch)]
  const RESEARCH_ONLY: map<MeterType, Meter> := map[Research := Meter(1.0, 2.0), TargetResearch := Meter(5.0, 5.0)]
  const INDUSTRY_AND_RESEARCH: map<MeterType, Meter> := map[Industry := Meter(3.0, 4.0), Research := Meter(1.0, 2.0)]

  lemma CollectResearchOnly()
    ensures Collect(WITNESS_PAIRS, RESEARCH_ONLY).colours == [MeterColor(Research)]
  {
    assert WITNESS_PAIRS[..1] == [(Industry, TargetIndustry)];
    assert [(Industry, TargetIndustry)][..0] == [];
    assert Collect(WITNESS_PAIRS[..1], RESEARCH_ONLY) == Collected([], [], [], []);
  }

  lemma CollectIndustryAndResearch()
    ensures Collect(WITNESS_PAIRS, INDUSTRY_AND_RESEARCH).initial == [3.0, 1.0]
  {
    assert WITNESS_PAIRS[..1] == [(Industry, TargetIndustry)];
    assert [(Industry, TargetIndustry)][..0] == [];
    assert Collect(WITNESS_PAIRS[..1], INDUSTRY_AND_RESEARCH).initial == [3.0];
  }

  const WITNESS_BAR: MeterStatusBar := MeterStatusBar(7, WITNESS_PAIRS, [], [], [], [], 0)

  lemma FirstWitnessUpdate()
    ensures var bar1 := Update(WITNESS_BAR, map[7 := UniverseObject(RESEARCH_ONLY)]);
      bar1.objectId == 7 && bar1.meterTypes == WITNESS_PAIRS && bar1.barColours == [MeterColor(Research)]
  {
    CollectResearchOnly();
  }

  lemma SecondWitnessUpdate(bar1: MeterStatusBar)
    requires bar1.objectId == 7 && bar1.meterTypes == WITNESS_PAIRS && bar1.barColours == [MeterColor(Research)]
    ensures var bar2 := Update(bar1, map[7 := UniverseObject(INDUSTRY_AND_RESEARCH)]);
      bar2.initialValues == [3.0, 1.0] && bar2.barColours[0] == MeterColor(Research)
  {
    CollectIndustryAndResearch();
  }

  /** Two updates of one bar where the object first has only its research
      meters and then also its industry meters: `Render` then colours the
      industry bar (bar 0) with the research colour left from the first update. */
  lemma StaleColourWitness()
    ensures var bar2 := Update(Update(WITNESS_BAR, map[7 := UniverseObject(RESEARCH_ONLY)]),
                               map[7 := UniverseObject(INDUSTRY_AND_RESEARCH)]);
      |bar2.initialValues| == 2 && bar2.initialValues[0] == 3.0
      && RenderColour(bar2, 0) != MeterColor(Industry)
  {
    var bar1 := Update(WITNESS_BAR, map[7 := UniverseObject(RESEARCH_ONLY)]);
    FirstWitnessUpdate();
    SecondWitnessUpdate(bar1);
    ResearchIsNotIndustryColour();
  }

  lemma ResearchIsNotIndustryColour()
    ensures MeterColor(Research) != MeterColor(Industry)
  {
  }

  /** `Update` with the colours cleared along with the values: the colour
      list then always matches the bars one for one. */
  function UpdateClearingColours(bar: MeterStatusBar, objects: map<int, UniverseObject>): (bar': MeterStatusBar)
    ensures bar'.objectId == bar.objectId && bar'.meterTypes == bar.meterTypes
    ensures bar.objectId !in objects ==>
              && bar'.initialValues == [] && bar'.projectedValues == [] && bar'.targetValues == []
              && bar'.barColours == [] && bar'.height == bar.height
    ensures bar.objectId in objects ==>
              var meters := objects[bar.objectId].meters;
              var shown := ShownPairs(bar.meterTypes, meters);
              && CollectedFrom(Collected(bar'.initialValues, bar'.projectedValues, bar'.targetValues,
                                         bar'.barColours), shown, meters)
              && bar'.height == StackHeight(|shown| % 256)
  {
    if bar.objectId !in objects then
      bar.(initialValues := [], projectedValues := [], targetValues := [], barColours := [])
    else
      var c := Collect(bar.meterTypes, objects[bar.objectId].meters);
      MeterStatusBar(bar.objectId, bar.meterTypes, c.initial, c.projected, c.target,
                     c.colours, StackHeight(|c.initial| % 256))
  }

  /** With colours cleared, every bar `Render` draws has its own meter's colour,
      however many updates came before. */
  lemma ClearedColoursMatchBars(bar: MeterStatusBar, objects: map<int, UniverseObject>, i: nat)
    requires bar.objectId in objects
    requires i < |UpdateClearingColours(bar, objects).initialValues|
    ensures var bar' := UpdateClearingColours(bar, objects);
      var shown := ShownPairs(bar.meterTypes, objects[bar.objectId].meters);
      i < |bar'.barColours| && RenderColour(bar', i) == MeterColor(shown[i].0)
  {
  }
}

=== FILE: option_controls.dfy ===
/** Decision rules of the option rows in the options dialog: the spin
    parameters chosen from an option's validator (`IntOption`,
    `DoubleOption`), the file-name validators (`Valid*File`,
    `ValidDirectory`, `ValidExecutableBinary`) and the gate that writes an
    edited path into the options database only when it validates
    (`FileOptionImpl`). */
module OptionControls {
  import opened Common
  import opened Text

  // ------------------------------------------------------------ spins

  /** The validator an option is registered with. `Unranged` stands for any
      other validator (or none), which the C++ code treats alike. */
  datatype Validator<T> =
    | Ranged(min: T, max: T)
    | Stepped(step: T)
    | RangedStepped(step: T, min: T, max: T)
    | Unranged

  /** Step size and bounds a `CUISpin` is created with. */
  datatype SpinParams<T> = SpinParams(step: T, min: T, max: T)

  const SPIN_LIMIT: int := 1000000

  /** `IntOption`: the step comes from the validator when it has one, else 1;
      the bounds come from the validator when it has them, else +-1000000. */
  function IntSpin(v: Validator<int>): (p: SpinParams<int>)
    ensures p.step == (if v.Stepped? || v.RangedStepped? then v.step else 1)
    ensures v.Ranged? || v.RangedStepped? ==> p.min == v.min && p.max == v.max
    ensures v.Stepped? || v.Unranged? ==> p.min == -SPIN_LIMIT && p.max == SPIN_LIMIT
  {
    match v
    case Ranged(lo, hi) => SpinParams(1, lo, hi)
    case Stepped(step) => SpinParams(step, -SPIN_LIMIT, SPIN_LIMIT)
    case RangedStepped(step, lo, hi) => SpinParams(step, lo, hi)
    case Unranged => SpinParams(1, -SPIN_LIMIT, SPIN_LIMIT)
  }

  /** `DoubleOption`: the same dispatch over `double` validators. The values
      are only copied, never computed with, so `real` is exact here. */
  function DoubleSpin(v: Validator<real>): (p: SpinParams<real>)
    ensures p.step == (if v.Stepped? || v.RangedStepped? then v.step else 1.0)
    ensures v.Ranged? || v.RangedStepped? ==> p.min == v.min && p.max == v.max
    ensures v.Stepped? || v.Unranged? ==> p.min == -SPIN_LIMIT as real && p.max == SPIN_LIMIT as real
  {
    match v
    case Ranged(lo, hi) => SpinParams(1.0, lo, hi)
    case Stepped(step) => SpinParams(step, -SPIN_LIMIT as real, SPIN_LIMIT as real)
    case RangedStepped(step, lo, hi) => SpinParams(step, lo, hi)
    case Unranged => SpinParams(1.0, -SPIN_LIMIT as real, SPIN_LIMIT as real)
  }

  function IntToRealValidator(v: Validator<int>): Validator<real>
  {
    match v
    case Ranged(lo, hi) => Ranged(lo as real, hi as real)
    case Stepped(step) => Stepped(step as real)
    case RangedStepped(step, lo, hi) => RangedStepped(step as real, lo as real, hi as real)
    case Unranged => Unranged
  }

  /** The two dispatches are one rule: a double option whose validator holds
      the integer validator's numbers gets the integer spin's numbers. */
  lemma IntAndDoubleSpinAgree(v: Validator<int>)
    ensures var p := IntSpin(v);
      DoubleSpin(IntToRealValidator(v)) == SpinParams(p.step as real, p.min as real, p.max as real)
  {
  }

  // ------------------------------------------------------------ file names

  const STRINGTABLE_FILE_SUFFIX: string := ".txt"
  const MUSIC_FILE_SUFFIX: string := ".ogg"
  const SOUND_FILE_SUFFIX: string := ".ogg"
  const FONT_FILE_SUFFIX: string := ".ttf"
  const EXE_FILE_SUFFIX: string := ".exe"

  /** What the filesystem says about a name. `unusable` holds the names whose
      path conversion or query throws, which every validator catches and
      answers with false. */
  datatype FileSystem = FileSystem(
    unusable: set<string>,
    existing: set<string>,
    directories: set<string>,
    regularFiles: set<string>)

  /** Shared shape of the four `Valid*File` helpers. */
  predicate ExistingFileWithSuffix(fs: FileSystem, file: string, suffix: string)
  {
    file !in fs.unusable && EndsWith(file, suffix) && file in fs.existing && file !in fs.directories
  }

  /** `ValidStringtableFile`: a usable, existing non-directory named "*.txt". */
  function ValidStringtableFile(fs: FileSystem, file: string): (ok: bool)
    ensures ok ==> EndsWith(file, STRINGTABLE_FILE_SUFFIX) && file in fs.existing && file !in fs.directories
  {
    ExistingFileWithSuffix(fs, file, STRINGTABLE_FILE_SUFFIX)
  }

  /** `ValidFontFile`: a usable, existing non-directory named "*.ttf". */
  function ValidFontFile(fs: FileSystem, file: string): (ok: bool)
    ensures ok ==> EndsWith(file, FONT_FILE_SUFFIX) && file in fs.existing && file !in fs.directories
  {
    ExistingFileWithSuffix(fs, file, FONT_FILE_SUFFIX)
  }

  /** `ValidMusicFile`: a usable, existing non-directory named "*.ogg". */
  function ValidMusicFile(fs: FileSystem, file: string): (ok: bool)
    ensures ok ==> EndsWith(file, MUSIC_FILE_SUFFIX) && file in fs.existing && file !in fs.directories
  {
    ExistingFileWithSuffix(fs, file, MUSIC_FILE_SUFFIX)
  }

  /** `ValidSoundFile`: a usable, existing non-directory named "*.ogg". */
  function ValidSoundFile(fs: FileSystem, file: string): (ok: bool)
    ensures ok ==> EndsWith(file, SOUND_FILE_SUFFIX) && file in fs.existing && file !in fs.directories
  {
    ExistingFileWithSuffix(fs, file, SOUND_FILE_SUFFIX)
  }

  /** `ValidDirectory`: a usable, existing directory. A name it accepts is
      rejected by every suffix file check, whatever the suffix. */
  function ValidDirectory(fs: FileSystem, file: string): (ok: bool)
    ensures ok ==> file in fs.existing && file in fs.directories
    ensures ok ==> forall suffix :: !ExistingFileWithSuffix(fs, file, suffix)
  {
    file !in fs.unusable && file in fs.existing && file in fs.directories
  }

  /** `ValidExecutableBinary`: a usable, existing regular file; the ".exe"
      suffix is demanded only in Windows builds. */
  function ValidExecutableBinary(fs: FileSystem, windows: bool, file: string): (ok: bool)
    ensures ok ==> file in fs.existing && file in fs.regularFiles
    ensures ok && windows ==> EndsWith(file, EXE_FILE_SUFFIX)
  {
    file !in fs.unusable && (!windows || EndsWith(file, EXE_FILE_SUFFIX))
    && file in fs.existing && file in fs.regularFiles
  }

  /** Music and sound files share the ".ogg" suffix, so their checks agree. */
  lemma MusicAndSoundChecksAgree(fs: FileSystem, file: string)
    ensures ValidMusicFile(fs, file) == ValidSoundFile(fs, file)
  {
  }

  /** A binary the Windows build accepts is accepted by every other build;
      elsewhere the suffix does not matter. */
  lemma WindowsBinaryCheckIsStricter(fs: FileSystem, file: string)
    ensures ValidExecutableBinary(fs, true, file) ==> ValidExecutableBinary(fs, false, file)
    ensures ValidExecutableBinary(fs, false, file) && EndsWith(file, EXE_FILE_SUFFIX) ==> ValidExecutableBinary(fs, true, file)
  {
  }

  /** The validator a file row is created with. */
  datatype FileCheck =
    | StringtableFile
    | FontFile
    | MusicFile
    | SoundFile
    | Directory
    | ExecutableBinary(windows: bool)

  function Suffix(check: FileCheck): Option<string>
  {
    match check
    case StringtableFile => Some(STRINGTABLE_FILE_SUFFIX)
    case FontFile => Some(FONT_FILE_SUFFIX)
    case MusicFile => Some(MUSIC_FILE_SUFFIX)
    case SoundFile => Some(SOUND_FILE_SUFFIX)
    case Directory => None
    case ExecutableBinary(windows) => if windows then Some(EXE_FILE_SUFFIX) else None
  }

  /** Runs a row's validator; a row without one accepts everything. */
  function Accepts(check: Option<FileCheck>, fs: FileSystem, file: string): (ok: bool)
    ensures check.None? ==> ok
    ensures check.Some? ==>
              (ok <==>
                 && file !in fs.unusable && file in fs.existing
                 && (Suffix(check.value).Some? ==> EndsWith(file, Suffix(check.value).value))
                 && (if check.value.Directory? then file in fs.directories
                     else if check.value.ExecutableBinary? then file in fs.regularFiles
                     else file !in fs.directories))
  {
    match check
    case None => true
    case Some(StringtableFile) => ValidStringtableFile(fs, file)
    case Some(FontFile) => ValidFontFile(fs, file)
    case Some(MusicFile) => ValidMusicFile(fs, file)
    case Some(SoundFile) => ValidSoundFile(fs, file)
    case Some(Directory) => ValidDirectory(fs, file)
    case Some(ExecutableBinary(windows)) => ValidExecutableBinary(fs, windows, file)
  }

  /** Suffix checks of equal length but different text exclude each other: no
      name is both a valid font and a valid music file, or both a valid
      stringtable and a valid sound file. */
  lemma SuffixChecksExclusive(fs: FileSystem, file: string)
    ensures !(ValidFontFile(fs, file) && ValidMusicFile(fs, file))
    ensures !(ValidStringtableFile(fs, file) && ValidSoundFile(fs, file))
    ensures !(ValidFontFile(fs, file) && ValidStringtableFile(fs, file))
  {
    if ValidFontFile(fs, file) && ValidMusicFile(fs, file) {
      EndsWithSameLength(file, FONT_FILE_SUFFIX, MUSIC_FILE_SUFFIX);
    }
    if ValidStringtableFile(fs, file) && ValidSoundFile(fs, file) {
      EndsWithSameLength(file, STRINGTABLE_FILE_SUFFIX, SOUND_FILE_SUFFIX);
    }
    if ValidFontFile(fs, file) && ValidStringtableFile(fs, file) {
      EndsWithSameLength(file, FONT_FILE_SUFFIX, STRINGTABLE_FILE_SUFFIX);
    }
  }

  /** An existing usable non-directory passes a suffix check if its name is
      some stem followed by the suffix. */
  lemma SuffixCheckOnAppendedName(fs: FileSystem, stem: string, suffix: string)
    requires var f := stem + suffix; f !in fs.unusable && f in fs.existing && f !in fs.directories
    ensures ExistingFileWithSuffix(fs, stem + suffix, suffix)
  {
    EndsWithAppend(stem, suffix);
  }

  /** Conversely, a name that passes a suffix check is a stem followed by the
      suffix: the stem is the name with the suffix cut off. */
  lemma SuffixCheckNameSplits(fs: FileSystem, file: string, suffix: string)
    requires ExistingFileWithSuffix(fs, file, suffix)
    ensures |suffix| <= |file| && file == file[..|file| - |suffix|] + suffix
  {
  }

  // ------------------------------------------------------------ edit gate

  datatype TextColor = NormalText | RedText

  /** A file row: the option it edits, the text in its edit box, that text's
      colour, and the options database. */
  datatype FileRow = FileRow(option: string, text: string, color: TextColor, db: OptionsDB)

  /** The row's invariant: the text is red exactly when the validator rejects
      it, and an accepted text is what the database holds for the option. */
  predicate RowConsistent(row: FileRow, check: Option<FileCheck>, fs: FileSystem)
  {
    && (row.color == RedText <==> !Accepts(check, fs, row.text))
    && (Accepts(check, fs, row.text) ==> row.option in row.db && row.db[row.option] == StringValue(row.text))
  }

  /** Construction: the edit shows the option's current value and turns red
      if the validator rejects it. */
  function NewFileRow(db: OptionsDB, option: string, check: Option<FileCheck>, fs: FileSystem): (row: FileRow)
    requires option in db && db[option].StringValue?
    ensures row.option == option && row.db == db && row.text == db[option].s
    ensures RowConsistent(row, check, fs)
  {
    var text := db[option].s;
    FileRow(option, text, if Accepts(check, fs, text) then NormalText else RedText, db)
  }

  /** The `EditedSignal` handler: a rejected string only turns the text red;
      an accepted one restores the colour and is stored under the option. */
  function Edited(row: FileRow, check: Option<FileCheck>, fs: FileSystem, str: string): (row': FileRow)
    ensures row'.text == str && row'.option == row.option
    ensures !Accepts(check, fs, str) ==> row'.color == RedText && row'.db == row.db
    ensures Accepts(check, fs, str) ==> row'.color == NormalText && row'.db == row.db[row.option := StringValue(str)]
  {
    if check.Some? && !Accepts(check, fs, str) then
      row.(text := str, color := RedText)
    else
      row.(text := str, color := NormalText, db := row.db[row.option := StringValue(str)])
  }

  /** Every edit keeps the row consistent. */
  lemma EditKeepsRowConsistent(row: FileRow, check: Option<FileCheck>, fs: FileSystem, str: string)
    ensures RowConsistent(Edited(row, check, fs, str), check, fs)
  {
  }

  /** No edit touches any option other than the row's own. */
  lemma EditTouchesOnlyItsOption(row: FileRow, check: Option<FileCheck>, fs: FileSystem, str: string, other: string)
    requires other != row.option
    ensures var db' := Edited(row, check, fs, str).db;
      (other in db' <==> other in row.db) && (other in row.db ==> db'[other] == row.db[other])
  {
  }

  /** Entering the same string twice is the same as entering it once. */
  lemma EditIdempotent(row: FileRow, check: Option<FileCheck>, fs: FileSystem, str: string)
    ensures Edited(Edited(row, check, fs, str), check, fs, str) == Edited(row, check, fs, str)
  {
  }
}

=== FILE: resolution.dfy ===
/** The video-mode drop list of the options dialog (`ResolutionOption`):
    the "W x H" text of the current fullscreen size, the row it pre-selects,
    and the parse of a selected row back into width and height. */
module Resolution {
  import opened Common
  import opened Text

  const WIDTH_OPTION: string := "video.fullscreen.width"
  const HEIGHT_OPTION: string := "video.fullscreen.height"
  const SEPARATOR: string := " x "

  /** `boost::format("%1% x %2%") % width % height` of the two `int`
      options: the text the row-selection handler parses back into exactly
      this width and height. */
  function FormatMode(width: Int32, height: Int32): (mode: string)
    ensures ParseMode(mode) == (width, height)
  {
    ParseFormatRoundTrip(width, height);
    IntToDecimal(width) + SEPARATOR + IntToDecimal(height)
  }

  /** The row-selection handler's parse,
      `qi::parse(int_[w = _1] >> " x " >> int_[h = _1])`, with `w` and `h`
      starting at 0. Each `int_` that succeeds assigns before a later part of
      the sequence fails, and trailing text is ignored. */
  function ParseMode(name: string): (wh: (int, int))
    ensures INT32_MIN <= wh.0 <= INT32_MAX && INT32_MIN <= wh.1 <= INT32_MAX
    ensures ParseInt(name).None? ==> wh == (0, 0)
  {
    match ParseInt(name)
    case None => (0, 0)
    case Some((w, rest)) =>
      if |rest| >= |SEPARATOR| && rest[..|SEPARATOR|] == SEPARATOR then
        match ParseInt(rest[|SEPARATOR|..])
        case None => (w, 0)
        case Some((h, _)) => (w, h)
      else (w, 0)
  }

  /** Parsing "W x H", printed as `boost::format` prints two `int`s, gives
      back W and H. */
  lemma ParseFormatRoundTrip(width: Int32, height: Int32)
    ensures ParseMode(IntToDecimal(width) + SEPARATOR + IntToDecimal(height)) == (width, height)
  {
    var tail := SEPARATOR + IntToDecimal(height);
    assert IntToDecimal(width) + SEPARATOR + IntToDecimal(height) == IntToDecimal(width) + tail;
    IntRoundTrip(width, tail);
    assert tail[..|SEPARATOR|] == SEPARATOR;
    assert tail[|SEPARATOR|..] == IntToDecimal(height) + "";
    IntRoundTrip(height, "");
  }

  /** Two examples: a name that is not a number leaves both at 0, and a
      number without the " x " separator sets only the width. */
  lemma ParseFallbacks()
    ensures ParseMode("native") == (0, 0)
    ensures ParseMode("800") == (800, 0)
  {
    assert DigitRun("native") == 0;
    assert DigitRun("800") == 3 by {
      assert "800"[1..] == "00";
      assert "00"[1..] == "0";
      assert "0"[1..] == "";
    }
    assert DigitsValue("800") == 800 by {
      assert "800"[..2] == "80";
      assert "80"[..1] == "8";
      assert "8"[..0] == "";
    }
    assert "800"[..3] == "800";
  }

  /** A width not followed by the " x " separator sets only the width, for
      every width and every following text that does not extend the number. */
  lemma NoSeparatorSetsOnlyWidth(width: Int32, rest: string)
    requires rest == [] || !IsDigit(rest[0])
    requires !(|rest| >= |SEPARATOR| && rest[..|SEPARATOR|] == SEPARATOR)
    ensures ParseMode(IntToDecimal(width) + rest) == (width, 0)
  {
    IntRoundTrip(width, rest);
  }

  /** The loop over the supported resolutions: the last position holding
      `current`, or -1. */
  method LastIndexOf(resolutions: seq<string>, current: string) returns (index: int)
    ensures -1 <= index < |resolutions|
    ensures index == -1 <==> current !in resolutions
    ensures index != -1 ==> resolutions[index] == current
    ensures index != -1 ==> forall j :: index < j < |resolutions| ==> resolutions[j] != current
  {
    index := -1;
    var loopIndex := 0;
    while loopIndex < |resolutions|
      invariant 0 <= loopIndex <= |resolutions|
      invariant -1 <= index < loopIndex
      invariant index == -1 <==> current !in resolutions[..loopIndex]
      invariant index != -1 ==> resolutions[index] == current
      invariant forall j :: index < j < loopIndex ==> resolutions[j] != current
    {
      if resolutions[loopIndex] == current {
        index := loopIndex;
      }
      assert resolutions[..loopIndex + 1] == resolutions[..loopIndex] + [resolutions[loopIndex]];
      loopIndex := loopIndex + 1;
    }
    assert resolutions[..loopIndex] == resolutions;
  }

  /** The index of the current fullscreen mode's text among the supported
      resolutions: the last row equal to it, or -1. */
  method CurrentResolutionIndex(resolutions: seq<string>, width: Int32, height: Int32) returns (index: int)
    ensures -1 <= index < |resolutions|
    ensures index == -1 <==> FormatMode(width, height) !in resolutions
    ensures index != -1 ==> resolutions[index] == FormatMode(width, height)
    ensures index != -1 ==> forall j :: index < j < |resolutions| ==> resolutions[j] != FormatMode(width, height)
  {
    var current := FormatMode(width, height);
    index := LastIndexOf(resolutions, current);
  }

  /** The row the drop list starts with selected: the current index, when the
      list has rows and the index is not -1. */
  method InitialSelection(resolutions: seq<string>, width: Int32, height: Int32) returns (selected: Option<nat>)
    ensures selected.Some? <==> FormatMode(width, height) in resolutions
    ensures selected.Some? ==> selected.value < |resolutions| && resolutions[selected.value] == FormatMode(width, height)
    ensures selected.Some? ==> forall j :: selected.value < j < |resolutions| ==> resolutions[j] != FormatMode(width, height)
  {
    var index := CurrentResolutionIndex(resolutions, width, height);
    if |resolutions| >= 1 && index != -1 {
      selected := Some(index);
    } else {
      selected := None;
    }
  }

  /** The `SelChangedSignal` handler: `None` is the end iterator or an empty
      row, which change nothing; a named row writes the parsed width and
      height. */
  function ModeSelected(db: OptionsDB, rowName: Option<string>): (db': OptionsDB)
    ensures rowName.None? ==> db' == db
    ensures rowName.Some? ==>
              && WIDTH_OPTION in db' && HEIGHT_OPTION in db'
              && db'[WIDTH_OPTION] == IntValue(ParseMode(rowName.value).0)
              && db'[HEIGHT_OPTION] == IntValue(ParseMode(rowName.value).1)
    ensures forall k :: k != WIDTH_OPTION && k != HEIGHT_OPTION ==> (k in db' <==> k in db) && (k in db ==> db'[k] == db[k])
  {
    match rowName
    case None => db
    case Some(name) =>
      var (w, h) := ParseMode(name);
      db[WIDTH_OPTION := IntValue(w)][HEIGHT_OPTION := IntValue(h)]
  }

  /** Selecting the row "W x H" makes the fullscreen size W by H. */
  lemma SelectingFormattedRow(db: OptionsDB, width: Int32, height: Int32)
    ensures var db' := ModeSelected(db, Some(FormatMode(width, height)));
      db'[WIDTH_OPTION] == IntValue(width) && db'[HEIGHT_OPTION] == IntValue(height)
  {
  }
}

=== FILE: sound_feedback.dfy ===
/** `OptionsWnd::SoundOptionsFeedback`: the handlers behind the music and
    sound-effects check boxes and volume sliders. The sound system is a
    record of the state those handlers change; whether `Sound::Enable()`
    succeeds is an input, since device initialisation is outside the model. */
module SoundFeedback {

  /** A check box the feedback object may or may not have been given. */
  datatype CheckBox = NoBox | Box(checked: bool)

  /** The part of `Sound::GetSound()` the handlers drive. */
  datatype SoundSystem = SoundSystem(enabled: bool, musicPlaying: bool, musicVolume: int, effectsVolume: int)

  /** Options "audio.effects.enabled", "audio.music.enabled",
      "audio.effects.volume", "audio.music.volume", the sound system, the two
      boxes, and how many failure message boxes were shown. */
  datatype SoundPanel = SoundPanel(
    effectsOption: bool,
    musicOption: bool,
    effectsVolumeOption: int,
    musicVolumeOption: int,
    system: SoundSystem,
    effectsBox: CheckBox,
    musicBox: CheckBox,
    failuresShown: nat)

  function Uncheck(b: CheckBox): CheckBox
  {
    if b.Box? then Box(false) else NoBox
  }

  /** `SoundInitializationFailure`: both options off, both boxes unchecked,
      and a message box. */
  function InitializationFailure(p: SoundPanel): (p': SoundPanel)
    ensures !p'.effectsOption && !p'.musicOption
    ensures p'.effectsBox.Box? <==> p.effectsBox.Box?
    ensures p'.musicBox.Box? <==> p.musicBox.Box?
    ensures p'.effectsBox.Box? ==> !p'.effectsBox.checked
    ensures p'.musicBox.Box? ==> !p'.musicBox.checked
    ensures p'.failuresShown == p.failuresShown + 1
    ensures p'.system == p.system
    ensures p'.effectsVolumeOption == p.effectsVolumeOption && p'.musicVolumeOption == p.musicVolumeOption
  {
    p.(effectsOption := false, musicOption := false,
       effectsBox := Uncheck(p.effectsBox), musicBox := Uncheck(p.musicBox),
       failuresShown := p.failuresShown + 1)
  }

  /** `SoundEffectsEnableClicked(checked)`. Turning effects off turns the
      sound system off only when music is off too. */
  function EffectsClicked(p: SoundPanel, checked: bool, enableSucceeds: bool): (p': SoundPanel)
    ensures checked && enableSucceeds ==> p'.effectsOption && p'.system.enabled && p'.musicOption == p.musicOption
    ensures checked && !enableSucceeds ==> p' == InitializationFailure(p)
    ensures !checked ==> !p'.effectsOption && p'.musicOption == p.musicOption
    ensures !checked ==> (p'.system.enabled <==> p.system.enabled && p.musicOption)
    ensures p'.system.musicPlaying == p.system.musicPlaying
    ensures !checked || enableSucceeds ==>
              && p'.effectsBox == p.effectsBox && p'.musicBox == p.musicBox
              && p'.failuresShown == p.failuresShown
              && p'.effectsVolumeOption == p.effectsVolumeOption && p'.musicVolumeOption == p.musicVolumeOption
              && p'.system.effectsVolume == p.system.effectsVolume && p'.system.musicVolume == p.system.musicVolume
  {
    if checked then
      if enableSucceeds then
        p.(system := p.system.(enabled := true), effectsOption := true)
      else InitializationFailure(p)
    else
      var p1 := p.(effectsOption := false);
      if !p1.musicOption then p1.(system := p1.system.(enabled := false)) else p1
  }

  /** `MusicClicked(checked)`. Turning music on starts it; turning it off
      stops it, and turns the sound system off only when effects are off too. */
  function MusicClicked(p: SoundPanel, checked: bool, enableSucceeds: bool): (p': SoundPanel)
    ensures checked && enableSucceeds ==> p'.musicOption && p'.system.enabled && p'.system.musicPlaying && p'.effectsOption == p.effectsOption
    ensures checked && !enableSucceeds ==> p' == InitializationFailure(p)
    ensures !checked ==> !p'.musicOption && !p'.system.musicPlaying && p'.effectsOption == p.effectsOption
    ensures !checked ==> (p'.system.enabled <==> p.system.enabled && p.effectsOption)
    ensures !checked || enableSucceeds ==>
              && p'.effectsBox == p.effectsBox && p'.musicBox == p.musicBox
              && p'.failuresShown == p.failuresShown
              && p'.effectsVolumeOption == p.effectsVolumeOption && p'.musicVolumeOption == p.musicVolumeOption
              && p'.system.effectsVolume == p.system.effectsVolume && p'.system.musicVolume == p.system.musicVolume
  {
    if checked then
      if enableSucceeds then
        p.(system := p.system.(enabled := true, musicPlaying := true), musicOption := true)
      else InitializationFailure(p)
    else
      var p1 := p.(musicOption := false, system := p.system.(musicPlaying := false));
      if !p1.effectsOption then p1.(system := p1.system.(enabled := false)) else p1
  }

  /** `MusicVolumeSlid`: option and sound system get the new volume. */
  function MusicVolumeSlid(p: SoundPanel, pos: int): (p': SoundPanel)
    ensures p'.musicVolumeOption == pos && p'.system.musicVolume == pos
    ensures p'.effectsVolumeOption == p.effectsVolumeOption && p'.system.effectsVolume == p.system.effectsVolume
    ensures p'.effectsOption == p.effectsOption && p'.musicOption == p.musicOption
    ensures p'.system.enabled == p.system.enabled && p'.system.musicPlaying == p.system.musicPlaying
    ensures p'.effectsBox == p.effectsBox && p'.musicBox == p.musicBox && p'.failuresShown == p.failuresShown
  {
    p.(musicVolumeOption := pos, system := p.system.(musicVolume := pos))
  }

  /** `UISoundsVolumeSlid`: option and sound system get the new volume. */
  function EffectsVolumeSlid(p: SoundPanel, pos: int): (p': SoundPanel)
    ensures p'.effectsVolumeOption == pos && p'.system.effectsVolume == pos
    ensures p'.musicVolumeOption == p.musicVolumeOption && p'.system.musicVolume == p.system.musicVolume
    ensures p'.effectsOption == p.effectsOption && p'.musicOption == p.musicOption
    ensures p'.system.enabled == p.system.enabled && p'.system.musicPlaying == p.system.musicPlaying
    ensures p'.effectsBox == p.effectsBox && p'.musicBox == p.musicBox && p'.failuresShown == p.failuresShown
  {
    p.(effectsVolumeOption := pos, system := p.system.(effectsVolume := pos))
  }

  /** A user click: the box takes the clicked state, then its handler runs. */
  function ToggleEffectsBox(p: SoundPanel, checked: bool, enableSucceeds: bool): SoundPanel
  {
    EffectsClicked(p.(effectsBox := if p.effectsBox.Box? then Box(checked) else NoBox), checked, enableSucceeds)
  }

  function ToggleMusicBox(p: SoundPanel, checked: bool, enableSucceeds: bool): SoundPanel
  {
    MusicClicked(p.(musicBox := if p.musicBox.Box? then Box(checked) else NoBox), checked, enableSucceeds)
  }

  /** Boxes that exist show their option's value. */
  predicate BoxesAgree(p: SoundPanel)
  {
    && (p.effectsBox.Box? ==> p.effectsBox.checked == p.effectsOption)
    && (p.musicBox.Box? ==> p.musicBox.checked == p.musicOption)
  }

  /** Clicks and initialisation failures keep the boxes in step with the options. */
  lemma TogglesKeepBoxesAgreeing(p: SoundPanel, checked: bool, enableSucceeds: bool)
    requires BoxesAgree(p)
    ensures BoxesAgree(ToggleEffectsBox(p, checked, enableSucceeds))
    ensures BoxesAgree(ToggleMusicBox(p, checked, enableSucceeds))
  {
  }

  /** With both options off after a switch-off click, the sound system is off. */
  lemma SwitchingOffSilences(p: SoundPanel)
    ensures var q := EffectsClicked(p, false, true); !q.effectsOption && !q.musicOption ==> !q.system.enabled
    ensures var q := MusicClicked(p, false, true); !q.effectsOption && !q.musicOption ==> !q.system.enabled && !q.system.musicPlaying
  {
  }

  /** Switching both off, in either order, leaves the sound system off and music stopped. */
  lemma BothOffInEitherOrder(p: SoundPanel, b: bool)
    ensures var q := MusicClicked(EffectsClicked(p, false, b), false, b);
      !q.effectsOption && !q.musicOption && !q.system.enabled && !q.system.musicPlaying
    ensures var q := EffectsClicked(MusicClicked(p, false, b), false, b);
      !q.effectsOption && !q.musicOption && !q.system.enabled && !q.system.musicPlaying
  {
  }
}

=== FILE: text.dfy ===
/** Character-level helpers the dialog relies on: C-locale upper-casing
    (`::toupper`), `boost::algorithm::ends_with`, decimal printing of an `int`
    (`boost::format("%1%")`) and the `qi::int_` decimal parser. */
module Text {
  import opened Common

  // ---------------------------------------------------------------- case

  predicate IsLower(c: char) { 'a' <= c <= 'z' }

  /** `::toupper` in the "C" locale: only 'a'..'z' change. */
  function UpperChar(c: char): (u: char)
    ensures !IsLower(u)
    ensures IsLower(c) ==> u as int + 32 == c as int
    ensures !IsLower(c) ==> u == c
  {
    if IsLower(c) then (c as int - 32) as char else c
  }

  function ToUpper(s: string): (u: string)
    ensures |u| == |s|
    ensures forall i :: 0 <= i < |s| ==> u[i] == UpperChar(s[i])
  {
    if s == [] then [] else [UpperChar(s[0])] + ToUpper(s[1..])
  }

  /** Upper-casing twice is upper-casing once. */
  lemma ToUpperIdempotent(s: string)
    ensures ToUpper(ToUpper(s)) == ToUpper(s)
  {
  }

  /** Upper-casing works character by character, so it distributes over `+`. */
  lemma ToUpperAppend(a: string, b: string)
    ensures ToUpper(a + b) == ToUpper(a) + ToUpper(b)
  {
    assert forall i :: 0 <= i < |a + b| ==> ToUpper(a + b)[i] == (ToUpper(a) + ToUpper(b))[i];
  }

  // ---------------------------------------------------------------- suffix

  /** `boost::algorithm::ends_with(s, suffix)`. */
  predicate EndsWith(s: string, suffix: string)
  {
    |suffix| <= |s| && s[|s| - |suffix|..] == suffix
  }

  lemma EndsWithAppend(p: string, suffix: string)
    ensures EndsWith(p + suffix, suffix)
  {
    assert (p + suffix)[|p|..] == suffix;
  }

  /** Two suffixes of the same length that a string both ends with are equal,
      so no name passes two different suffix checks of equal length. */
  lemma EndsWithSameLength(s: string, x: string, y: string)
    requires EndsWith(s, x) && EndsWith(s, y) && |x| == |y|
    ensures x == y
  {
  }

  // ---------------------------------------------------------------- decimal

  predicate IsDigit(c: char) { '0' <= c <= '9' }

  predicate AllDigits(s: string) { forall i :: 0 <= i < |s| ==> IsDigit(s[i]) }

  function DigitChar(d: nat): (c: char)
    requires d < 10
    ensures IsDigit(c) && c as int - '0' as int == d
  {
    ('0' as int + d) as char
  }

  /** Decimal digits of `n`, most significant first, without leading zeros. */
  function NatToDecimal(n: nat): (s: string)
    ensures 1 <= |s| && AllDigits(s)
    ensures s[0] == '0' ==> n == 0
    decreases n
  {
    if n < 10 then [DigitChar(n)] else NatToDecimal(n / 10) + [DigitChar(n % 10)]
  }

  /** How `boost::format` prints an `int`: a '-' for negatives, then the digits. */
  function IntToDecimal(i: int): string
  {
    if i < 0 then "-" + NatToDecimal(-i) else NatToDecimal(i)
  }

  /** The number a digit string denotes (leading zeros allowed). */
  function DigitsValue(s: string): nat
    requires AllDigits(s)
  {
    if s == [] then 0 else DigitsValue(s[..|s| - 1]) * 10 + (s[|s| - 1] as int - '0' as int)
  }

  lemma {:induction false} DecimalRoundTrip(n: nat)
    ensures DigitsValue(NatToDecimal(n)) == n
    decreases n
  {
    if n >= 10 {
      var s := NatToDecimal(n);
      assert s[..|s| - 1] == NatToDecimal(n / 10);
      DecimalRoundTrip(n / 10);
    }
  }

  /** Length of the run of digits `s` starts with. */
  function DigitRun(s: string): (k: nat)
    ensures k <= |s| && AllDigits(s[..k])
    ensures k < |s| ==> !IsDigit(s[k])
  {
    if s != [] && IsDigit(s[0]) then
      var k := 1 + DigitRun(s[1..]);
      assert s[..k] == [s[0]] + s[1..][..k - 1];
      k
    else 0
  }

  lemma {:induction false} DigitRunOfDigits(d: string, rest: string)
    requires AllDigits(d)
    requires rest == [] || !IsDigit(rest[0])
    ensures DigitRun(d + rest) == |d|
    decreases |d|
  {
    if d != [] {
      assert (d + rest)[1..] == d[1..] + rest;
      DigitRunOfDigits(d[1..], rest);
    }
  }

  /** Width of the optional '+' or '-' that `qi::int_` accepts first. */
  function SignWidth(s: string): (w: nat)
    ensures w <= 1 && w <= |s|
  {
    if s != [] && (s[0] == '-' || s[0] == '+') then 1 else 0
  }

  /** The value of the digits `s[SignWidth(s)..k]`, negated after a '-'. */
  function SignedValue(s: string, k: nat): int
    requires SignWidth(s) <= k <= |s| && AllDigits(s[SignWidth(s)..k])
  {
    var m: int := DigitsValue(s[SignWidth(s)..k]);
    if s != [] && s[0] == '-' then -m else m
  }

  /** `qi::int_`: an optional '+' or '-', then at least one digit; the value
      must fit a 32-bit `int`, otherwise the parser fails. On success yields
      the value and the unparsed remainder: it consumes the sign and the whole
      digit run after it. */
  function ParseInt(s: string): (r: Option<(int, string)>)
    ensures r.Some? ==> INT32_MIN <= r.value.0 <= INT32_MAX && |r.value.1| < |s|
    ensures r.Some? ==> r.value.1 == s[|s| - |r.value.1|..]
    ensures r.Some? ==>
              var k := |s| - |r.value.1|;
              && SignWidth(s) < k && AllDigits(s[SignWidth(s)..k])
              && (k == |s| || !IsDigit(s[k]))
              && r.value.0 == SignedValue(s, k)
    ensures (s == [] || (s[0] != '+' && s[0] != '-' && !IsDigit(s[0]))) ==> r.None?
    ensures SignWidth(s) == |s| || !IsDigit(s[SignWidth(s)]) ==> r.None?
  {
    var sw := SignWidth(s);
    var body := s[sw..];
    var k := DigitRun(body);
    if k == 0 then None
    else
      assert body[..k] == s[sw..sw + k];
      var v := SignedValue(s, sw + k);
      if INT32_MIN <= v <= INT32_MAX then
        assert body[k..] == s[sw + k..];
        Some((v, body[k..]))
      else None
  }

  /** The converse: a sign followed by a maximal digit run is parsed exactly
      when its value fits a 32-bit `int`, and then gives that value and the
      text after the run. */
  lemma ParseIntOnDigitRun(s: string, k: nat)
    requires SignWidth(s) < k <= |s| && AllDigits(s[SignWidth(s)..k])
    requires k == |s| || !IsDigit(s[k])
    ensures INT32_MIN <= SignedValue(s, k) <= INT32_MAX ==> ParseInt(s) == Some((SignedValue(s, k), s[k..]))
    ensures !(INT32_MIN <= SignedValue(s, k) <= INT32_MAX) ==> ParseInt(s) == None
  {
    var sw := SignWidth(s);
    assert s[sw..] == s[sw..k] + s[k..];
    DigitRunOfDigits(s[sw..k], s[k..]);
  }

  /** The digits of one past the largest 32-bit `int`. */
  lemma OverflowDigitsValue()
    ensures DigitsValue("2147483648") == 2147483648
  {
    assert DigitsValue("2") == 2;
    assert "21"[..1] == "2";
    assert DigitsValue("21") == 21;
    assert "214"[..2] == "21";
    assert DigitsValue("214") == 214;
    assert "2147"[..3] == "214";
    assert DigitsValue("2147") == 2147;
    assert "21474"[..4] == "2147";
    assert DigitsValue("21474") == 21474;
    assert "214748"[..5] == "21474";
    assert DigitsValue("214748") == 214748;
    assert "2147483"[..6] == "214748";
    assert DigitsValue("2147483") == 2147483;
    assert "21474836"[..7] == "2147483";
    assert DigitsValue("21474836") == 21474836;
    assert "214748364"[..8] == "21474836";
    assert DigitsValue("214748364") == 214748364;
    assert "2147483648"[..9] == "214748364";
    assert DigitsValue("2147483648") == 2147483648;
  }

  /** One past the largest 32-bit `int` overflows, so `qi::int_` fails on it. */
  lemma ParseIntOverflowWitness()
    ensures ParseInt("2147483648") == None
  {
    var s := "2147483648";
    assert s[0..10] == s;
    OverflowDigitsValue();
    ParseIntOnDigitRun(s, 10);
  }

  /** `qi::int_` reads back what `boost::format` printed, and stops at the
      first character that is not a digit. */
  lemma IntRoundTrip(i: int, rest: string)
    requires INT32_MIN <= i <= INT32_MAX
    requires rest == [] || !IsDigit(rest[0])
    ensures ParseInt(IntToDecimal(i) + rest) == Some((i, rest))
  {
    var n: nat := if i < 0 then -i else i;
    var d := NatToDecimal(n);
    DigitRunOfDigits(d, rest);
    DecimalRoundTrip(n);
    assert (d + rest)[..|d|] == d;
    assert (d + rest)[|d|..] == rest;
    if i < 0 {
      assert (("-" + d) + rest)[1..] == d + rest;
    } else {
      assert d[0] != '-' && d[0] != '+';
    }
  }
}
